=== FILE: README.md ===
# ShpParser in Dafny

This project models `ShpParser`, a PHP decoder for the main `.shp` file of an
ESRI Shapefile, and proves properties of that model. The parser reads three
things:

- the 100-byte main file header: the file length, the shape type and the bounding box;
- the records from offset 100 to the end of the file;
- the geometry of each Point, PolyLine, Polygon and MultiPoint record, which it
  turns into OGC Well-Known Text (WKT).

The constructor leaves three fields behind:

- `headerInfo`;
- `shpData`, the non-empty records;
- `errorData`, the exception that stopped decoding, if any.

The model has two layers.

- **Functions of the file contents.** The `Decoder` module, built on `Reader`,
  `ShapeTypes`, `Wkt` and `Parts`, gives one function per parser step. Each
  takes the bytes and a position. It returns the decoded value and the position
  after it, or the fault that stops the run.
- **The object itself.** `Parser.ShpParser` is a class with the file, a cursor
  `pos`, and the fields `headerInfo`, `shpData` and `errorData`.
  - Its methods update the cursor and the fields in place, and contain the
    parser's own loops.
  - Each method is proved to agree with the function of the same name:
    `Reader.LoadData` for `LoadData`, and the `Decoder` function for every
    other method.
  - The constructor is proved to produce `Decoder.Parse`.

Other conventions:

- **PHP `null`** is `None`. PHP's comparisons and increments on `null` in the
  part loop are written out (`Parts.Less`, `Parts.Incr`).
- **Exceptions** are `Failure` results.
- **Doubles** are kept as their eight raw bytes.
- **`sprintf('%f', …)`** is a formatter parameter, `Records.Formatter`.

Modules, one file each:

| file | module | contents |
|---|---|---|
| `bytes.dfy` | `Bytes` | `unpack('N')` and `unpack('V')` as byte arithmetic, with encoders and round-trip lemmas |
| `records.dfy` | `Records` | the arrays the parser builds, as datatypes, plus `Result`, `Step` and `Agrees` |
| `shape_types.dfy` | `ShapeTypes` | `geomTypes` and `geoTypeFromID`, with PHP's array-key rules |
| `reader.dfy` | `Reader` | `loadDataLength` and `loadData` |
| `wkt.dfy` | `Wkt` | `implode`, coordinate formatting, and the WKT of each shape |
| `parts.dfy` | `Parts` | part reassembly in `processLineStrings`, and its loops |
| `decoder.dfy` | `Decoder` | every `load…` step as a function of the bytes, and what a run of records keeps |
| `properties.dfy` | `Properties` | layout, dispatch and record-loop theorems |
| `parser.dfy` | `Parser` | the `ShpParser` class |

Where the ESRI Shapefile Technical Description and the code disagree, the model
follows the code. There is one such place, the MultiPoint record.

- The description lays out a MultiPoint record as:
  - a bounding box;
  - a 4-byte little-endian point count;
  - that many points.

  The code does something else:
  - it reads the count as an 8-byte double;
  - its point loop is bounded by `$this->shpData['numGeometries']`, a key that
    `shpData` never has.

  So it reads no point, and it consumes 40 bytes whatever the count says.
  `Decoder.LoadMultiPointRecord` models the code.
  `Decoder.EsriMultiPointRecord` models the described layout. No part of the
  parser uses it; it exists only so that `Properties.MultiPointLayoutsDisagree`
  can state the difference.

One more behaviour of the code is kept as it is, though the description says
nothing about it: after an exception, the records already appended to
`shpData` stay there (ShpParser.php:31-38). `errorData` holds the exception and
`shpData` holds the records decoded before it
(`Properties.ParseKeepsPrefixOnError`).

## Model

| member | source | states |
|---|---|---|
| Bytes.BigEndian32 | ShpParser.php:133-134 | `unpack('N')` of four bytes is a value below 2^32 |
| Bytes.LittleEndian32 | ShpParser.php:133-134 | `unpack('V')` of four bytes is a value below 2^32 |
| Bytes.BigEndian32RoundTrip | ShpParser.php:133-134 | a word written big-endian is read back by `N` unchanged |
| Bytes.LittleEndian32RoundTrip | ShpParser.php:133-134 | a word written little-endian is read back by `V` unchanged |
| Bytes.BigEndian32Injective | ShpParser.php:133-134 | re-encoding what `N` decoded gives the same four bytes, so no two byte strings decode alike |
| Bytes.LittleEndian32Injective | ShpParser.php:133-134 | the same for `V` |
| ShapeTypes.GeomTypes | ShpParser.php:56-74 | the table names exactly the fourteen codes 0, 1, 3, 5, 8, 11, 13, 15, 18, 21, 23, 25, 28, 31 |
| ShapeTypes.GeoTypeFromID | ShpParser.php:76-85 | the lookup gives a name exactly when the key is, or is a canonical decimal string for, one of the fourteen codes; an integer key is named iff it is one of them; null gives null; the name given is the table's entry under the key's index |
| ShapeTypes.DecodedCodeNames | ShpParser.php:56-63 | codes 0, 1, 3, 5 and 8 are named Null Shape, Point, PolyLine, Polygon and MultiPoint |
| ShapeTypes.OtherCodeNames | ShpParser.php:64-72 | codes 11, 13, 15, 18, 21, 23, 25, 28 and 31 are named PointZ, PolyLineZ, PolygonZ, MultiPointZ, PointM, PolyLineM, PolygonM, MultiPointM and MultiPatch |
| ShapeTypes.DecodedNameIffDecodedCode | ShpParser.php:171-189 | the name of a code read from the file is one `loadRecord` switches on iff the code is 0, 1, 3, 5 or 8 |
| ShapeTypes.NameIsNeverACode | ShpParser.php:103-104 | no name in the table is itself a key of the table, so looking a name up again gives null |
| Reader.LoadDataLength | ShpParser.php:141-150 | `d` is 8 bytes wide, `V` and `N` are 4, and every other code has no width |
| Reader.LoadData | ShpParser.php:127-139 | a code without a width, or a read at or past the end of the file, gives null and leaves the cursor; a cut-off read fails; otherwise exactly the width is consumed and unpacked |
| Reader.Unpack | ShpParser.php:133-134 | `N` and `V` give a word below 2^32 and `d` a double; in each case the four or eight bytes can be recovered from the value |
| Reader.LoadBigEndianWord | ShpParser.php:127-139 | an `N` read at `pos` returns the word written there big-endian and moves to `pos + 4` |
| Reader.LoadLittleEndianWord | ShpParser.php:127-139 | a `V` read at `pos` returns the word written there little-endian and moves to `pos + 4` |
| Wkt.JoinAppend | ShpParser.php:291 | `implode` of two non-empty lists laid end to end is the two `implode`s with one separator between them |
| Wkt.JoinLength | ShpParser.php:291 | `implode` of `n` items adds exactly `n - 1` separators to their characters |
| Wkt.PointWkt | ShpParser.php:337 | a Point's WKT is the one coordinate pair tagged `POINT` |
| Wkt.PolyLineWkt | ShpParser.php:222-227 | the PolyLine tag starts with MULTI exactly when `numParts > 1` (null is not > 1) |
| Wkt.PolygonWkt | ShpParser.php:246-251 | the Polygon tag starts with MULTI exactly when `numParts > 1` (null is not > 1) |
| Wkt.MultiPointWkt | ShpParser.php:321 | a MultiPoint's WKT is its items tagged `MULTIPOINT`; with no items it is `MULTIPOINT()` |
| Wkt.CoordsAppend | ShpParser.php:279-292 | formatting a run of points is formatting each point, in order, so it distributes over concatenation |
| Wkt.JoinWithinParens | ShpParser.php:247 | joining with `"), ("` inside one pair of parentheses equals wrapping each item and joining with `", "` |
| Wkt.PolygonNestsOneLevelDeeper | ShpParser.php:221-251 | PolyLine WKT is `TAG(g1, …)` over the part strings; Polygon WKT is the same with every part, or the single ring, in one more pair of parentheses |
| Parts.Less | ShpParser.php:288 | `$j < $hi` holds exactly when the bound is not null and `$j` is below it, with a null `$j` counting as 0 |
| Parts.Incr | ShpParser.php:288 | `$j++` gives the successor, with `null++` being 1 |
| Parts.PartSlots | ShpParser.php:288 | the values of `$j` start at `parts[i]`, each is the increment of the one before, the loop test holds for each, and it fails for the value after the last |
| Parts.PointAt | ShpParser.php:289 | `$points[$j]` is the point read at that index when it is one; a null or out-of-range index gives null coordinates |
| Parts.Geometries | ShpParser.php:279-293 | one part gives one string per point; otherwise there is one string per declared part (none for null) |
| Parts.AssembleGeometries | ShpParser.php:279-293 | the formatting loops build exactly `Geometries` |
| Parts.FormatPart | ShpParser.php:287-290 | the inner loop formats exactly the points at the indices `$j` visits from `parts[i]` to `parts[i+1]`, null bounds included |
| Parts.PartIsSlice | ShpParser.php:288-289 | between two in-range indices the inner loop visits exactly that slice of the points, in order |
| Parts.PartsPartitionPoints | ShpParser.php:268-292 | for starts that begin at 0, never decrease and end at `numPoints`: part i is `points[parts[i]..parts[i+1]]`, the parts laid end to end give back the points, and their lengths sum to `numPoints` |
| Parts.MultiPartGeometries | ShpParser.php:285-292 | with several well-formed parts, geometry i is the parenthesised list of exactly the points of slice i |
| Parts.SinglePartIsWholeArray | ShpParser.php:279-283 | with one part the geometry is every point in order, whatever start is stored; for start 0 it equals what slicing would give |
| Decoder.LoadPoint | ShpParser.php:195-201 | a point read never moves the cursor backwards, nor past the end of the file, and fails only when the file ends inside a double |
| Decoder.LoadBoundingBox | ShpParser.php:95-98 | the four box reads never move the cursor backwards, nor past the end of the file, and fail only when the file ends inside a double |
| Decoder.LoadWords | ShpParser.php:268-270 | the part-start loop yields exactly `n` starts, never moves backwards, and fails only when the file ends inside a word |
| Decoder.LoadPoints | ShpParser.php:275-277 | the point loop yields exactly `n` points, never moves backwards, and fails only when the file ends inside a double |
| Decoder.ProcessLineStrings | ShpParser.php:261-299 | the part list never moves the cursor backwards, and fails only when the file ends inside a field; unless exactly one part is declared, there is one geometry string per declared part |
| Decoder.NullRecord | ShpParser.php:203-206 | a Null Shape's geometry is the empty array, so its record is never kept |
| Decoder.LoadPointRecord | ShpParser.php:325-338 | a Point record that decodes is a shape; it fails only when the file ends inside a double |
| Decoder.LoadPolyLineRecord | ShpParser.php:208-230 | a PolyLine record that decodes is a shape whose `numGeometries` is an integer count, and its WKT says MULTI exactly when that count is over 1; it fails only when the file ends inside a field |
| Decoder.LoadPolygonRecord | ShpParser.php:232-254 | a Polygon record that decodes is a shape whose `numGeometries` is an integer count, and its WKT says MULTI exactly when that count is over 1; it fails only when the file ends inside a field |
| Decoder.LoadMultiPointRecord | ShpParser.php:301-323 | a MultiPoint record that decodes is a shape whose WKT is `MULTIPOINT()`; it fails only when the file ends inside a double |
| Decoder.EsriMultiPointRecord | ShpParser.php:301-323 | the described MultiPoint layout never moves the cursor backwards, gives a shape, and fails only when the file ends inside a field |
| Decoder.LoadGeometry | ShpParser.php:171-189 | the switch decodes only the five supported names, and sends Point, PolyLine, Polygon and MultiPoint each to its own decoder; any other name, or null, fails with `UnsupportedType` for that name; the geometry is empty iff the name is Null Shape |
| Decoder.LoadRecord | ShpParser.php:158-193 | a record that decodes moves the cursor forward and ends within the file; a record fails only when the file ends inside a field or its type name (possibly null) is outside the switch |
| Decoder.KeepAll | ShpParser.php:117-119 | a run of decoded records adds at most one record each to `shpData` |
| Decoder.KeepAllIsTheShapes | ShpParser.php:117-119 | a run of decoded records adds exactly its non-empty records, the shapes, and no other |
| Decoder.KeepAllSnoc | ShpParser.php:117-119 | keeping records one at a time, in order, keeps the same list as keeping the whole run at once |
| Decoder.LoadRecords | ShpParser.php:110-121 | a fault, if any, is a cut-off field or an unsupported type |
| Decoder.DecodesExtend | ShpParser.php:114-119 | a run of decoded records grows by the record decoded where the run ends |
| Decoder.RecordsAfterRun | ShpParser.php:110-121 | after a run of decoded records, the loop has kept the non-empty ones among them, in file order, followed by what the rest of the file gives |
| Decoder.FaultKeepsDecodedPrefix | ShpParser.php:110-121 | when a record fails after a run, the loop reports that fault and keeps the run's non-empty records |
| Decoder.CleanEndKeepsAll | ShpParser.php:110-121 | a run that ends exactly at the end of the file keeps all of its non-empty records and reports no fault |
| Decoder.LoadHeaders | ShpParser.php:87-108 | the header never throws the unsupported-type exception; it fails only when the file ends inside one of its fields |
| Decoder.Parse | ShpParser.php:27-39 | if the header fails, nothing was decoded and `errorData` holds a cut-off read; any fault kept is a cut-off read or an unsupported type |
| Properties.LoadWordsLayout | ShpParser.php:268-270 | `n` starts stored in full are read as their little-endian values, consuming `4n` bytes |
| Properties.LoadPointsLayout | ShpParser.php:275-277 | `n` points stored in full are read as stored, x then y, consuming `16n` bytes |
| Properties.BoundingBoxLayout | ShpParser.php:95-98 | four doubles are read in the order xmin, ymin, xmax, ymax, as stored, consuming 32 bytes |
| Properties.BoundingBoxDecodesUnlessCut | ShpParser.php:95-98 | the bounding box fails exactly when the file ends inside one of its doubles |
| Properties.HeaderLayout | ShpParser.php:87-108 | for a file of at least 68 bytes, the length is the big-endian word at 24, `id` is the name of the little-endian code at 32, `name` is null, and the box is the four doubles from 36, unchecked |
| Properties.HeaderRoundTrip | ShpParser.php:87-108 | a header written with a length and a type code reads back with that length and that code's name |
| Properties.HeaderTypeNameIsNull | ShpParser.php:92-104 | for every file, a header that decodes has a null `shapeType.name` |
| Properties.HeaderDecodesUnlessCut | ShpParser.php:87-108 | the header decodes iff the file does not end inside the length, the type code, or one of the four doubles |
| Properties.RecordHeaderLayout | ShpParser.php:158-169 | a record's first 12 bytes are the number and the length (both dropped) and the type code; the shape is decoded from byte 12 on |
| Properties.RecordHeaderCut | ShpParser.php:158-169 | a record whose first 12 bytes are cut off by the end of the file fails |
| Properties.RecordDispatch | ShpParser.php:158-193 | a record decodes only if its type code is 0, 1, 3, 5 or 8, and it keeps that code and its name; any other code, Z/M/MultiPatch codes included, fails with `UnsupportedType` |
| Properties.RecordDecodesByCode | ShpParser.php:158-189 | a record with type code 1, 3, 5 or 8 is exactly what the Point, PolyLine, Polygon or MultiPoint decoder gives from byte 12, under that code and its name; a failure of that decoder is the record's failure |
| Properties.NullShapeReadsNothing | ShpParser.php:172-173 | a Null Shape record reads only its 12 header bytes and has an empty geometry |
| Properties.PointRecordLayout | ShpParser.php:325-338 | a Point record's box collapses onto the point, `numGeometries` is 1, its WKT is `POINT(x y)`, and it consumes 16 bytes |
| Properties.MultiPointAsWritten | ShpParser.php:301-323 | a MultiPoint record reads a box and an 8-byte count, no point, gives `MULTIPOINT()` and consumes 40 bytes |
| Properties.EsriMultiPointLayout | ShpParser.php:316-321 | the described MultiPoint layout would read `n` points after a 4-byte count and end at `36 + 16n` |
| Properties.MultiPointLayoutsDisagree | ShpParser.php:310-316 | the code as written and the described layout never end a MultiPoint record at the same offset |
| Properties.ProcessLineStringsLayout | ShpParser.php:261-299 | a part list stored in full gives its part count, and geometries built from the stored starts with `numPoints` appended; it ends after the last point |
| Properties.MultiPartLineStrings | ShpParser.php:261-299 | with k >= 2 well-formed parts, there are k geometry strings, string i lists exactly the points of part i, and the list ends after its last point |
| Properties.LineRecordsShareParts | ShpParser.php:208-254 | PolyLine and Polygon records decode the same bytes alike: both succeed or both fail, with the same box, the same `numGeometries` (the part count) and the same end; their WKT differs only by one level of parentheses |
| Properties.KeptRecordsAreShapes | ShpParser.php:114-119 | every record kept is a Point, PolyLine, Polygon or MultiPoint shape; Null Shape records are never kept |
| Properties.ParseKeepsPrefixOnError | ShpParser.php:27-39 | with a readable header, a fault in record k leaves `errorData` holding it and `shpData` holding the non-empty records before it |
| Parser.ShpParser.constructor | ShpParser.php:27-39 | headers then records; the first fault is kept in `errorData`, and `headerInfo` and `shpData` keep what was stored before it; the three fields are exactly `Decoder.Parse` |
| Parser.ShpParser.LoadData | ShpParser.php:127-139 | moves the cursor and returns exactly what `Reader.LoadData` says |
| Parser.ShpParser.LoadPoint | ShpParser.php:195-201 | agrees with `Decoder.LoadPoint` |
| Parser.ShpParser.LoadBoundingBox | ShpParser.php:95-98 | the four `d` reads agree with `Decoder.LoadBoundingBox` |
| Parser.ShpParser.LoadWords | ShpParser.php:268-270 | the part-start loop agrees with `Decoder.LoadWords` |
| Parser.ShpParser.LoadPoints | ShpParser.php:275-277 | the point loop agrees with `Decoder.LoadPoints` |
| Parser.ShpParser.ProcessLineStrings | ShpParser.php:261-299 | agrees with `Decoder.ProcessLineStrings` |
| Parser.ShpParser.LoadPointRecord | ShpParser.php:325-338 | agrees with `Decoder.LoadPointRecord` |
| Parser.ShpParser.LoadPolyLineRecord | ShpParser.php:208-230 | agrees with `Decoder.LoadPolyLineRecord` |
| Parser.ShpParser.LoadPolygonRecord | ShpParser.php:232-254 | agrees with `Decoder.LoadPolygonRecord` |
| Parser.ShpParser.LoadMultiPointRecord | ShpParser.php:301-323 | agrees with `Decoder.LoadMultiPointRecord` |
| Parser.ShpParser.LoadRecord | ShpParser.php:158-193 | agrees with `Decoder.LoadRecord` |
| Parser.ShpParser.LoadRecords | ShpParser.php:110-121 | starting at offset 100, appends to `shpData` exactly the records `Decoder.LoadRecords` keeps, in order, and returns its fault |
| Parser.ShpParser.LoadHeaders | ShpParser.php:87-108 | returns `Decoder.LoadHeaders`; `headerInfo` is set to it only when every field was read |

## Left out

- File I/O. `fopen`, `fclose` and `fseek` are not modelled as such. The file is a byte sequence, and `fseek` assigns the cursor.
- `feof`. In the model, the record loop stops when the cursor stands at the end of the byte sequence. PHP's `feof` on a plain file only turns true once a read has come back short. So when the last record ends exactly at the end of the file, PHP still calls `loadRecord` once more. That call reads three nulls and throws the unsupported-type exception for a null name at ShpParser.php:188. PHP therefore sets `errorData` for every such file. In the model such a file ends with no fault (`Decoder.CleanEndKeepsAll`). The records kept are the same either way. The same holds for a file of exactly 100 bytes, a header and no records. PHP's loop still calls `loadRecord` once, the type read is null, the exception at ShpParser.php:188 is thrown and `errorData` is set. The model's record loop does not run a turn, and `Decoder.Parse` reports no fault.
- Partial reads. When the file ends inside a field, `fread` returns fewer bytes than the width, and `unpack` of the short string fails. What follows depends on the PHP version:
  - In PHP 8, `unpack` returns false, and `current(false)` at ShpParser.php:134 throws a `TypeError`. That is an `Error`, not an `Exception`, so the `catch` at ShpParser.php:34 does not catch it. The constructor itself throws, and `errorData` is never set.
  - In PHP 7, `unpack` warns and `current` gives null. The field reads as null and decoding goes on with the cursor at the end of the file.

  The model follows neither. It stops decoding with its own `ShortRead` fault, and the constructor keeps that fault in `errorData`.
- Integer width. `unpack('N')` and `unpack('V')` are modelled as on 64-bit PHP, where a word is a non-negative integer below 2^32. On 32-bit PHP a word of 2^31 or more comes back negative, so a record length or a type code that large would read differently there.
- Floating point. A double is its eight raw bytes; the byte order PHP's `d` uses is not modelled. `sprintf('%f')` is the formatter parameter; its output is not modelled.
- Exceptions as a mechanism. A fault is a `Failure` value that `:-` passes up. The message text of the unsupported-type exception is not kept, only the name that caused it.
- The getters `headerInfo`, `getShapeData` and `getErrorData` (ShpParser.php:41-54). In the model they are the fields themselves.
- Z, M and MultiPatch payloads. The source has no decoder for them; their codes only appear in the name table, and such records fail.
- Parser.ShpParser.LoadMultiPointRecord: the point loop is not written out. Its bound, `$this->shpData['numGeometries']`, is always null, so the loop runs no turn.
- Decoder.EsriMultiPointRecord: not part of the parser. It is the described MultiPoint layout, used only for comparison.
- Properties.MultiPartLineStrings: it states the WKT of a PolyLine or Polygon record at the level of the part list. `Properties.LineRecordsShareParts` and `Wkt.PolygonNestsOneLevelDeeper` then give the full record's WKT in terms of that list. There is no single lemma from record bytes to WKT.
- Decoder.LoadPoint, Decoder.LoadBoundingBox, Decoder.LoadWords, Decoder.LoadPoints, Decoder.ProcessLineStrings, Decoder.LoadPointRecord, Decoder.LoadPolyLineRecord, Decoder.LoadPolygonRecord, Decoder.EsriMultiPointRecord, Decoder.LoadRecord and Decoder.LoadHeaders: their own contracts state how the cursor moves, how they can fail and the shape of what they give, not the values they read. What they read is stated by the layout lemmas in `Properties` and by the agreeing methods of `Parser.ShpParser`. Which shape decoder a record runs is stated by `Decoder.LoadGeometry`, `Properties.RecordDecodesByCode` and `Properties.NullShapeReadsNothing`.
- Decoder.LoadRecords and Decoder.Parse: their own contracts state only how the run can stop. What they keep is stated by `Decoder.RecordsAfterRun`, `Decoder.FaultKeepsDecodedPrefix`, `Decoder.CleanEndKeepsAll` and `Properties.ParseKeepsPrefixOnError`.

=== FILE: bytes.dfy ===
/**
 * Fixed-width unsigned integers as a shapefile lays them out on disk.
 * `unpack('N', …)` reads four bytes most significant first (big-endian),
 * `unpack('V', …)` four bytes least significant first (little-endian);
 * on a 64-bit PHP both give a non-negative integer below 2^32.
 */
module Bytes {

  type byte = b: int | 0 <= b < 0x100

  const WORD_LIMIT: nat := 0x1_0000_0000

  /** `unpack('N', s)`: the big-endian value of four bytes. */
  function BigEndian32(s: seq<byte>): (n: nat)
    requires |s| == 4
    ensures n < WORD_LIMIT
  {
    s[0] as int * 0x100_0000 + s[1] as int * 0x1_0000 + s[2] as int * 0x100 + s[3] as int
  }

  /** `unpack('V', s)`: the little-endian value of four bytes. */
  function LittleEndian32(s: seq<byte>): (n: nat)
    requires |s| == 4
    ensures n < WORD_LIMIT
  {
    s[3] as int * 0x100_0000 + s[2] as int * 0x1_0000 + s[1] as int * 0x100 + s[0] as int
  }

  /** The four bytes a writer stores for `n` in big-endian order. */
  function EncodeBigEndian32(n: nat): (s: seq<byte>)
    requires n < WORD_LIMIT
    ensures |s| == 4
  {
    [n / 0x100_0000, n / 0x1_0000 % 0x100, n / 0x100 % 0x100, n % 0x100]
  }

  /** The four bytes a writer stores for `n` in little-endian order. */
  function EncodeLittleEndian32(n: nat): (s: seq<byte>)
    requires n < WORD_LIMIT
    ensures |s| == 4
  {
    [n % 0x100, n / 0x100 % 0x100, n / 0x1_0000 % 0x100, n / 0x100_0000]
  }

  /** Splitting a number into its base-256 digits and putting them back gives the number. */
  lemma {:induction false} DigitsRecompose(n: nat)
    requires n < WORD_LIMIT
    ensures n / 0x100_0000 * 0x100_0000 + n / 0x1_0000 % 0x100 * 0x1_0000
            + n / 0x100 % 0x100 * 0x100 + n % 0x100 == n
  {
    var q1, r0 := n / 0x100, n % 0x100;
    var q2, r1 := q1 / 0x100, q1 % 0x100;
    var q3, r2 := q2 / 0x100, q2 % 0x100;
    assert n == q1 * 0x100 + r0;
    assert q1 == q2 * 0x100 + r1;
    assert q2 == q3 * 0x100 + r2;
    assert n / 0x1_0000 == q2;
    assert n / 0x100_0000 == q3;
  }

  lemma {:induction false} BigEndian32RoundTrip(n: nat)
    requires n < WORD_LIMIT
    ensures BigEndian32(EncodeBigEndian32(n)) == n
  {
    DigitsRecompose(n);
  }

  lemma {:induction false} LittleEndian32RoundTrip(n: nat)
    requires n < WORD_LIMIT
    ensures LittleEndian32(EncodeLittleEndian32(n)) == n
  {
    DigitsRecompose(n);
  }

  /** Re-encoding four decoded bytes gives the same four bytes: the decoding loses nothing. */
  lemma {:induction false} BigEndian32Injective(s: seq<byte>)
    requires |s| == 4
    ensures EncodeBigEndian32(BigEndian32(s)) == s
  {
    var n := BigEndian32(s);
    var hi: int := s[0] as int * 0x1_0000 + s[1] as int * 0x100 + s[2];
    assert n == hi * 0x100 + s[3];
    assert n / 0x100 == hi && n % 0x100 == s[3];
    assert hi / 0x100 == s[0] as int * 0x100 + s[1] && hi % 0x100 == s[2];
    assert n / 0x1_0000 == s[0] as int * 0x100 + s[1];
    assert n / 0x100_0000 == s[0];
  }

  lemma {:induction false} LittleEndian32Injective(s: seq<byte>)
    requires |s| == 4
    ensures EncodeLittleEndian32(LittleEndian32(s)) == s
  {
    var n := LittleEndian32(s);
    var hi: int := s[3] as int * 0x1_0000 + s[2] as int * 0x100 + s[1];
    assert n == hi * 0x100 + s[0];
    assert n / 0x100 == hi && n % 0x100 == s[0];
    assert hi / 0x100 == s[3] as int * 0x100 + s[2] && hi % 0x100 == s[1];
    assert n / 0x1_0000 == s[3] as int * 0x100 + s[2];
    assert n / 0x100_0000 == s[3];
  }
}

=== FILE: decoder.dfy ===
/**
 * The decoder as functions of the file contents: each `load…` step of the
 * parser takes a position and gives the decoded value and the position
 * after it, or the fault that stops the run. The class in `Parser` runs the
 * same steps on a cursor and is proved to agree with these functions.
 */
module Decoder {
  import opened Bytes
  import opened Records
  import opened ShapeTypes
  import opened Reader
  import opened Wkt
  import opened Parts

  const LENGTH_OFFSET: nat := 24
  const TYPE_OFFSET: nat := 32
  const RECORDS_OFFSET: nat := 100

  /** `loadPoint`: two doubles, x then y. */
  function LoadPoint(bytes: seq<byte>, pos: nat): (r: Result<Step<Point>>)
    ensures r.Success? ==> Advances(pos, r.value.next, |bytes|)
    ensures r.Failure? ==> r.error.ShortRead?
  {
    var x :- LoadData(bytes, pos, 'd');
    var y :- LoadData(bytes, x.next, 'd');
    Success(Step(Point(AsReal(x.value), AsReal(y.value)), y.next))
  }

  /** The four doubles xmin, ymin, xmax, ymax, in that order, as the header and the shape decoders read them. */
  function LoadBoundingBox(bytes: seq<byte>, pos: nat): (r: Result<Step<BoundingBox>>)
    ensures r.Success? ==> Advances(pos, r.value.next, |bytes|)
    ensures r.Failure? ==> r.error.ShortRead?
  {
    var xmin :- LoadData(bytes, pos, 'd');
    var ymin :- LoadData(bytes, xmin.next, 'd');
    var xmax :- LoadData(bytes, ymin.next, 'd');
    var ymax :- LoadData(bytes, xmax.next, 'd');
    Success(Step(BoundingBox(AsReal(xmin.value), AsReal(ymin.value), AsReal(xmax.value), AsReal(ymax.value)), ymax.next))
  }

  /** `n` successive `V` words: the part-start loop of `processLineStrings`. */
  function LoadWords(bytes: seq<byte>, pos: nat, n: nat): (r: Result<Step<seq<Option<nat>>>>)
    ensures r.Success? ==> Advances(pos, r.value.next, |bytes|) && |r.value.value| == n
    ensures r.Failure? ==> r.error.ShortRead?
    decreases n
  {
    if n == 0 then Success(Step([], pos))
    else
      var w :- LoadData(bytes, pos, 'V');
      var rest :- LoadWords(bytes, w.next, n - 1);
      Success(Step([AsWord(w.value)] + rest.value, rest.next))
  }

  /** `n` successive points: the point loop of `processLineStrings`. */
  function LoadPoints(bytes: seq<byte>, pos: nat, n: nat): (r: Result<Step<seq<Point>>>)
    ensures r.Success? ==> Advances(pos, r.value.next, |bytes|) && |r.value.value| == n
    ensures r.Failure? ==> r.error.ShortRead?
    decreases n
  {
    if n == 0 then Success(Step([], pos))
    else
      var p :- LoadPoint(bytes, pos);
      var rest :- LoadPoints(bytes, p.next, n - 1);
      Success(Step([p.value] + rest.value, rest.next))
  }

  /** What `processLineStrings` returns: the part count as read and the geometry strings. */
  datatype LineStrings = LineStrings(numParts: Option<nat>, geometries: seq<string>)

  /**
   * `processLineStrings`: part count, point count, the part starts, the
   * points; the point count is appended to the starts as the last boundary.
   */
  function ProcessLineStrings(bytes: seq<byte>, pos: nat, fmt: Formatter): (r: Result<Step<LineStrings>>)
    ensures r.Success? ==> Advances(pos, r.value.next, |bytes|)
    ensures r.Success? && r.value.value.numParts != Some(1) ==> |r.value.value.geometries| == Bound(r.value.value.numParts)
    ensures r.Failure? ==> r.error.ShortRead?
  {
    var np :- LoadData(bytes, pos, 'V');
    var nq :- LoadData(bytes, np.next, 'V');
    var numParts := AsWord(np.value);
    var numPoints := AsWord(nq.value);
    var starts :- LoadWords(bytes, nq.next, Bound(numParts));
    var points :- LoadPoints(bytes, starts.next, Bound(numPoints));
    Success(Step(LineStrings(numParts, Geometries(fmt, points.value, starts.value + [numPoints], numParts)), points.next))
  }

  /** `loadNullRecord`: the empty array, so `loadRecords` does not keep the record. */
  function NullRecord(): (g: Geometry)
    ensures forall t :: Kept(Record(t, g)) == []
  {
    Empty
  }

  /** `loadPointRecord`: one point, a bounding box collapsed onto it, one geometry. */
  function LoadPointRecord(bytes: seq<byte>, pos: nat, fmt: Formatter): (r: Result<Step<Geometry>>)
    ensures r.Success? ==> Advances(pos, r.value.next, |bytes|) && r.value.value.Shape?
    ensures r.Failure? ==> r.error.ShortRead?
  {
    var p :- LoadPoint(bytes, pos);
    var pt := p.value;
    Success(Step(Shape(BoundingBox(pt.x, pt.y, pt.x, pt.y), IntCount(Some(1)), PointWkt(fmt, pt)), p.next))
  }

  /** `loadPolyLineRecord`: a bounding box, then the parts; `numGeometries` is the part count. */
  function LoadPolyLineRecord(bytes: seq<byte>, pos: nat, fmt: Formatter): (r: Result<Step<Geometry>>)
    ensures r.Success? ==> Advances(pos, r.value.next, |bytes|) && r.value.value.Shape?
    ensures r.Success? ==> r.value.value.numGeometries.IntCount?
                           && ("MULTI" <= r.value.value.wkt <==> IsMulti(r.value.value.numGeometries.n))
    ensures r.Failure? ==> r.error.ShortRead?
  {
    var box :- LoadBoundingBox(bytes, pos);
    var ls :- ProcessLineStrings(bytes, box.next, fmt);
    Success(Step(Shape(box.value, IntCount(ls.value.numParts), PolyLineWkt(ls.value.numParts, ls.value.geometries)), ls.next))
  }

  /** `loadPolygonRecord`: as `loadPolyLineRecord`, with polygon WKT. */
  function LoadPolygonRecord(bytes: seq<byte>, pos: nat, fmt: Formatter): (r: Result<Step<Geometry>>)
    ensures r.Success? ==> Advances(pos, r.value.next, |bytes|) && r.value.value.Shape?
    ensures r.Success? ==> r.value.value.numGeometries.IntCount?
                           && ("MULTI" <= r.value.value.wkt <==> IsMulti(r.value.value.numGeometries.n))
    ensures r.Failure? ==> r.error.ShortRead?
  {
    var box :- LoadBoundingBox(bytes, pos);
    var ls :- ProcessLineStrings(bytes, box.next, fmt);
    Success(Step(Shape(box.value, IntCount(ls.value.numParts), PolygonWkt(ls.value.numParts, ls.value.geometries)), ls.next))
  }

  /**
   * `loadMultiPointRecord` as written: a bounding box, then the point count
   * read as an 8-byte double. Its point loop is bounded by
   * `$this->shpData['numGeometries']`, a key the record list never has;
   * PHP reads it as null and `0 < null` is false, so no point is read and
   * the WKT lists none.
   */
  function LoadMultiPointRecord(bytes: seq<byte>, pos: nat, fmt: Formatter): (r: Result<Step<Geometry>>)
    ensures r.Success? ==> Advances(pos, r.value.next, |bytes|) && r.value.value.Shape?
    ensures r.Success? ==> r.value.value.wkt == "MULTIPOINT()"
    ensures r.Failure? ==> r.error.ShortRead?
  {
    var box :- LoadBoundingBox(bytes, pos);
    var count :- LoadData(bytes, box.next, 'd');
    Success(Step(Shape(box.value, RealCount(AsReal(count.value)), MultiPointWkt([])), count.next))
  }

  /**
   * NOT part of the parser: the MultiPoint layout of the ESRI Shapefile
   * Technical Description (a bounding box, a 4-byte little-endian point
   * count, then that many points), with the WKT the source's loop would
   * build from them. It is here only to state how far the code as written
   * is from it (`MultiPointLayoutsDisagree`).
   */
  function EsriMultiPointRecord(bytes: seq<byte>, pos: nat, fmt: Formatter): (r: Result<Step<Geometry>>)
    ensures r.Success? ==> Advances(pos, r.value.next, |bytes|) && r.value.value.Shape?
    ensures r.Failure? ==> r.error.ShortRead?
  {
    var box :- LoadBoundingBox(bytes, pos);
    var count :- LoadData(bytes, box.next, 'V');
    var points :- LoadPoints(bytes, count.next, Bound(AsWord(count.value)));
    Success(Step(Shape(box.value, IntCount(AsWord(count.value)), MultiPointWkt(Wrapped(Coords(fmt, points.value)))), points.next))
  }

  /**
   * How a decode can stop: a field cut off by the end of the file, or the
   * exception for a type name (possibly null) outside `loadRecord`'s switch.
   */
  predicate RecordFault(e: Fault) {
    e.ShortRead? || !(e.name.Some? && e.name.value in DecodedNames)
  }

  /** The `switch` of `loadRecord` on the type name. */
  function LoadGeometry(bytes: seq<byte>, pos: nat, name: Option<string>, fmt: Formatter): (r: Result<Step<Geometry>>)
    ensures r.Success? ==> Advances(pos, r.value.next, |bytes|)
    ensures r.Success? ==> name.Some? && name.value in DecodedNames
    ensures (name.None? || name.value !in DecodedNames) ==> r == Failure(UnsupportedType(name))
    ensures r.Success? ==> (r.value.value.Empty? <==> name == Some("Null Shape"))
    ensures name == Some("Point") ==> r == LoadPointRecord(bytes, pos, fmt)
    ensures name == Some("PolyLine") ==> r == LoadPolyLineRecord(bytes, pos, fmt)
    ensures name == Some("Polygon") ==> r == LoadPolygonRecord(bytes, pos, fmt)
    ensures name == Some("MultiPoint") ==> r == LoadMultiPointRecord(bytes, pos, fmt)
    ensures r.Failure? ==> RecordFault(r.error) && (r.error.ShortRead? || r.error == UnsupportedType(name))
  {
    if name == Some("Null Shape") then Success(Step(NullRecord(), pos))
    else if name == Some("Point") then LoadPointRecord(bytes, pos, fmt)
    else if name == Some("PolyLine") then LoadPolyLineRecord(bytes, pos, fmt)
    else if name == Some("Polygon") then LoadPolygonRecord(bytes, pos, fmt)
    else if name == Some("MultiPoint") then LoadMultiPointRecord(bytes, pos, fmt)
    else Failure(UnsupportedType(name))
  }

  /**
   * `loadRecord`: record number (dropped), content length (discarded), type
   * code, then the shape. A record that decodes always moves the cursor
   * forward and never past the end of the file.
   */
  function LoadRecord(bytes: seq<byte>, pos: nat, fmt: Formatter): (r: Result<Step<Record>>)
    ensures r.Success? ==> pos < r.value.next <= |bytes|
    ensures r.Failure? ==> RecordFault(r.error)
  {
    var number :- LoadData(bytes, pos, 'N');
    var length :- LoadData(bytes, number.next, 'N');
    var code :- LoadData(bytes, length.next, 'V');
    var id := AsWord(code.value);
    var name := GeoTypeFromID(KeyOfWord(id));
    var geom :- LoadGeometry(bytes, code.next, name, fmt);
    Success(Step(Record(RecordType(id, name), geom.value), geom.next))
  }

  /** `if (!empty($record['geom']))`: the records a decoded record adds to `shpData`. */
  function Kept(rec: Record): seq<Record> {
    if rec.geom.Empty? then [] else [rec]
  }

  /** What a run of decoded records adds to `shpData`: at most one record for each. */
  function KeepAll(recs: seq<Record>): (r: seq<Record>)
    ensures |r| <= |recs|
  {
    if recs == [] then [] else Kept(recs[0]) + KeepAll(recs[1..])
  }

  /** The records `loadRecords` appends, and the exception that ended it, if any. */
  datatype RecordsOutcome = RecordsOutcome(kept: seq<Record>, fault: Option<Fault>)

  /** `loadRecords` from `pos`: decode records until the cursor stands at the end of the file. */
  function LoadRecords(bytes: seq<byte>, pos: nat, fmt: Formatter): (r: RecordsOutcome)
    ensures r.fault.Some? ==> RecordFault(r.fault.value)
    decreases |bytes| - pos
  {
    if pos == |bytes| then RecordsOutcome([], None)
    else
      match LoadRecord(bytes, pos, fmt)
      case Failure(e) => RecordsOutcome([], Some(e))
      case Success(s) =>
        var rest := LoadRecords(bytes, s.next, fmt);
        RecordsOutcome(Kept(s.value) + rest.kept, rest.fault)
  }

  /** The record decoder as a step from one position to the next record. */
  ghost function RecordStep(bytes: seq<byte>, fmt: Formatter): nat -> Result<Step<Record>> {
    (p: nat) => LoadRecord(bytes, p, fmt)
  }

  /**
   * `recs` were read one after the other by `step`: the i-th starts at
   * `starts[i]`, not at `end`, and the next one starts where it ends.
   */
  ghost predicate Run(step: nat -> Result<Step<Record>>, end: nat, starts: seq<nat>, recs: seq<Record>) {
    && |starts| == |recs| + 1
    && forall i :: 0 <= i < |recs| ==> starts[i] != end && step(starts[i]) == Success(Step(recs[i], starts[i + 1]))
  }

  /** A run grows by the value the step reads where it ends. */
  lemma RunExtend(step: nat -> Result<Step<Record>>, end: nat, starts: seq<nat>, recs: seq<Record>, rec: Record, next: nat)
    requires Run(step, end, starts, recs)
    requires starts[|recs|] != end && step(starts[|recs|]) == Success(Step(rec, next))
    ensures Run(step, end, starts + [next], recs + [rec])
  {
    var starts', recs' := starts + [next], recs + [rec];
    forall i | 0 <= i < |recs'|
      ensures starts'[i] != end && step(starts'[i]) == Success(Step(recs'[i], starts'[i + 1]))
    {
      if i < |recs| {
        assert starts'[i] == starts[i] && starts'[i + 1] == starts[i + 1] && recs'[i] == recs[i];
      }
    }
  }

  /** `recs` are records decoded one after the other from `starts[0]`, none of them at the end of the file. */
  ghost predicate Decodes(bytes: seq<byte>, fmt: Formatter, starts: seq<nat>, recs: seq<Record>) {
    Run(RecordStep(bytes, fmt), |bytes|, starts, recs)
  }

  /** A run of decoded records grows by the record that decodes where it ends. */
  lemma DecodesExtend(bytes: seq<byte>, fmt: Formatter, starts: seq<nat>, recs: seq<Record>, rec: Record, next: nat)
    requires Decodes(bytes, fmt, starts, recs)
    requires starts[|recs|] != |bytes| && LoadRecord(bytes, starts[|recs|], fmt) == Success(Step(rec, next))
    ensures Decodes(bytes, fmt, starts + [next], recs + [rec])
  {
    RunExtend(RecordStep(bytes, fmt), |bytes|, starts, recs, rec, next);
  }

  /** A run of decoded records keeps exactly its shapes: every record that is not a Null Shape, and no other. */
  lemma {:induction false} KeepAllIsTheShapes(recs: seq<Record>)
    ensures forall k :: k in KeepAll(recs) <==> k in recs && k.geom.Shape?
  {
    if recs != [] {
      KeepAllIsTheShapes(recs[1..]);
      assert recs == [recs[0]] + recs[1..];
    }
  }

  /** Keeping records one at a time, in order, keeps the same ones as keeping them all at once. */
  lemma {:induction false} KeepAllSnoc(recs: seq<Record>, rec: Record)
    ensures KeepAll(recs + [rec]) == KeepAll(recs) + Kept(rec)
  {
    if recs == [] {
      assert KeepAll([rec]) == Kept(rec) + KeepAll([]);
    } else {
      KeepAllSnoc(recs[1..], rec);
      assert (recs + [rec])[1..] == recs[1..] + [rec];
    }
  }

  /** One turn of the record loop: a record that decodes is kept (unless empty) ahead of what follows it. */
  lemma RecordsStep(bytes: seq<byte>, pos: nat, fmt: Formatter)
    requires pos != |bytes| && LoadRecord(bytes, pos, fmt).Success?
    ensures var s := LoadRecord(bytes, pos, fmt).value;
            var after := LoadRecords(bytes, s.next, fmt);
            LoadRecords(bytes, pos, fmt) == RecordsOutcome(Kept(s.value) + after.kept, after.fault)
  {
  }

  /** Outcomes that each add one record's share to the next one add up to all the shares at once. */
  lemma {:induction false} Telescope(outs: seq<RecordsOutcome>, recs: seq<Record>)
    requires |outs| == |recs| + 1
    requires forall i :: 0 <= i < |recs| ==> outs[i] == RecordsOutcome(Kept(recs[i]) + outs[i + 1].kept, outs[i + 1].fault)
    ensures outs[0] == RecordsOutcome(KeepAll(recs) + outs[|recs|].kept, outs[|recs|].fault)
    decreases |recs|
  {
    if recs != [] {
      Telescope(outs[1..], recs[1..]);
      var last := outs[|recs|];
      assert KeepAll(recs) + last.kept == Kept(recs[0]) + (KeepAll(recs[1..]) + last.kept);
    }
  }

  /**
   * Records are appended in file order: after a run of decoded records, what
   * the loop keeps is the non-empty ones among them, followed by whatever it
   * keeps from the rest of the file, and it ends the way the rest ends.
   */
  lemma {:induction false} RecordsAfterRun(bytes: seq<byte>, fmt: Formatter, starts: seq<nat>, recs: seq<Record>)
    requires Decodes(bytes, fmt, starts, recs)
    ensures var rest := LoadRecords(bytes, starts[|recs|], fmt);
            LoadRecords(bytes, starts[0], fmt) == RecordsOutcome(KeepAll(recs) + rest.kept, rest.fault)
  {
    var outs := seq(|starts|, i requires 0 <= i < |starts| => LoadRecords(bytes, starts[i], fmt));
    forall i | 0 <= i < |recs|
      ensures outs[i] == RecordsOutcome(Kept(recs[i]) + outs[i + 1].kept, outs[i + 1].fault)
    {
      assert starts[i] != |bytes| && LoadRecord(bytes, starts[i], fmt) == Success(Step(recs[i], starts[i + 1]));
      RecordsStep(bytes, starts[i], fmt);
    }
    Telescope(outs, recs);
  }

  /**
   * The first fault ends the run and is reported, and the records decoded
   * before it stay: they are kept, not discarded.
   */
  lemma {:induction false} FaultKeepsDecodedPrefix(bytes: seq<byte>, fmt: Formatter, starts: seq<nat>, recs: seq<Record>)
    requires Decodes(bytes, fmt, starts, recs)
    requires var p := starts[|recs|]; p != |bytes| && LoadRecord(bytes, p, fmt).Failure?
    ensures LoadRecords(bytes, starts[0], fmt)
            == RecordsOutcome(KeepAll(recs), Some(LoadRecord(bytes, starts[|recs|], fmt).error))
  {
    RecordsAfterRun(bytes, fmt, starts, recs);
    assert KeepAll(recs) + [] == KeepAll(recs);
  }

  /** A run that ends exactly at the end of the file keeps all its non-empty records and reports no fault. */
  lemma {:induction false} CleanEndKeepsAll(bytes: seq<byte>, fmt: Formatter, starts: seq<nat>, recs: seq<Record>)
    requires Decodes(bytes, fmt, starts, recs)
    requires starts[|recs|] == |bytes|
    ensures LoadRecords(bytes, starts[0], fmt) == RecordsOutcome(KeepAll(recs), None)
  {
    RecordsAfterRun(bytes, fmt, starts, recs);
    assert KeepAll(recs) + [] == KeepAll(recs);
  }

  /** `loadHeaders`: the file length at offset 24, the type code at 32, the bounding box after it. */
  function LoadHeaders(bytes: seq<byte>): (r: Result<Header>)
    ensures r.Failure? ==> r.error.ShortRead?
  {
    var length :- LoadData(bytes, LENGTH_OFFSET, 'N');
    var code :- LoadData(bytes, TYPE_OFFSET, 'V');
    var id := GeoTypeFromID(KeyOfWord(AsWord(code.value)));
    var box :- LoadBoundingBox(bytes, code.next);
    Success(Header(AsWord(length.value), HeaderType(id, GeoTypeFromID(KeyOfName(id))), box.value))
  }

  /** The three fields the constructor leaves behind. */
  datatype ParseResult = ParseResult(headerInfo: Option<Header>, shpData: seq<Record>, errorData: Option<Fault>)

  /** The constructor: headers, then records from offset 100; the first fault is kept in `errorData`. */
  function Parse(bytes: seq<byte>, fmt: Formatter): (r: ParseResult)
    ensures r.headerInfo.None? ==> r.shpData == [] && r.errorData.Some? && r.errorData.value.ShortRead?
    ensures r.errorData.Some? ==> RecordFault(r.errorData.value)
  {
    match LoadHeaders(bytes)
    case Failure(e) => ParseResult(None, [], Some(e))
    case Success(h) =>
      var records := LoadRecords(bytes, RECORDS_OFFSET, fmt);
      ParseResult(Some(h), records.kept, records.fault)
  }
}

=== FILE: parser.dfy ===
/**
 * The parser object itself: a cursor over the open file and the three
 * fields the constructor fills in. Every `load…` method moves the cursor
 * as `fread` does and is proved to agree with the function of the same
 * name in `Reader` (for `LoadData`) or `Decoder` (for every other
 * method): on success it returns that function's value and leaves the
 * cursor where that function says; on failure it returns the same fault. A PHP exception is a `Failure` result here, passed up by `:-`.
 */
module Parser {
  import opened Bytes
  import opened Records
  import opened ShapeTypes
  import opened Reader
  import opened Wkt
  import opened Parts
  import opened Decoder

  /** A run of values already read, in front of the outcome of reading the rest. */
  function Prepend<T>(xs: seq<T>, rest: Result<Step<seq<T>>>): Result<Step<seq<T>>> {
    match rest
    case Success(s) => Success(Step(xs + s.value, s.next))
    case Failure(e) => Failure(e)
  }

  lemma PrependNothing<T>(rest: Result<Step<seq<T>>>)
    ensures Prepend([], rest) == rest
  {
    if rest.Success? {
      assert [] + rest.value.value == rest.value.value;
    }
  }

  lemma PrependTwice<T>(xs: seq<T>, x: T, rest: Result<Step<seq<T>>>)
    ensures Prepend(xs, Prepend([x], rest)) == Prepend(xs + [x], rest)
  {
    if rest.Success? {
      assert xs + ([x] + rest.value.value) == xs + [x] + rest.value.value;
    }
  }

  class ShpParser {
    /** The contents of the `.shp` file. */
    const bytes: seq<byte>
    /** `sprintf('%f', …)`, see `Records.Formatter`. */
    const fmt: Formatter
    /** The file position of `$this->shpFile`. */
    var pos: nat
    /** `$headerInfo`: `None` while it is still the empty array. */
    var headerInfo: Option<Header>
    var shpData: seq<Record>
    /** `$errorData`: the exception the constructor caught, if any. */
    var errorData: Option<Fault>

    /**
     * The constructor: headers, then records; the first exception either
     * raises is caught and kept in `errorData`, and whatever was stored
     * before it stays.
     */
    constructor (file: seq<byte>, fmt: Formatter)
      ensures bytes == file && this.fmt == fmt
      ensures ParseResult(headerInfo, shpData, errorData) == Parse(file, fmt)
    {
      bytes := file;
      this.fmt := fmt;
      pos := 0;
      headerInfo := None;
      shpData := [];
      errorData := None;
      new;
      var header := LoadHeaders();
      if header.Failure? {
        errorData := Some(header.error);
        return;
      }
      errorData := LoadRecords();
    }

    /** `loadData`: read the width of `code` at the cursor and unpack it. */
    method LoadData(code: char) returns (r: Result<Option<Datum>>)
      modifies this`pos
      ensures Agrees(r, Reader.LoadData(bytes, old(pos), code), pos)
    {
      var width := LoadDataLength(code);
      if width.None? {
        return Success(None);
      }
      var got := Available(bytes, pos, width.value);
      if got == 0 {
        return Success(None);
      }
      if got < width.value {
        return Failure(ShortRead(pos));
      }
      var chunk := bytes[pos..pos + got];
      pos := pos + got;
      return Success(Some(Unpack(code, chunk)));
    }

    /** `loadPoint`. */
    method LoadPoint() returns (r: Result<Point>)
      modifies this`pos
      ensures Agrees(r, Decoder.LoadPoint(bytes, old(pos)), pos)
    {
      var x :- LoadData('d');
      var y :- LoadData('d');
      return Success(Point(AsReal(x), AsReal(y)));
    }

    /** The four `d` reads that open the header and every shape but a point. */
    method LoadBoundingBox() returns (r: Result<BoundingBox>)
      modifies this`pos
      ensures Agrees(r, Decoder.LoadBoundingBox(bytes, old(pos)), pos)
    {
      var xmin :- LoadData('d');
      var ymin :- LoadData('d');
      var xmax :- LoadData('d');
      var ymax :- LoadData('d');
      return Success(BoundingBox(AsReal(xmin), AsReal(ymin), AsReal(xmax), AsReal(ymax)));
    }

    /** The part-start loop of `processLineStrings`: `n` words, in file order. */
    method LoadWords(n: nat) returns (r: Result<seq<Option<nat>>>)
      modifies this`pos
      ensures Agrees(r, Decoder.LoadWords(bytes, old(pos), n), pos)
    {
      var words: seq<Option<nat>> := [];
      PrependNothing(Decoder.LoadWords(bytes, pos, n));
      for i := 0 to n
        invariant Decoder.LoadWords(bytes, old(pos), n) == Prepend(words, Decoder.LoadWords(bytes, pos, n - i))
      {
        var w :- LoadData('V');
        PrependTwice(words, AsWord(w), Decoder.LoadWords(bytes, pos, n - i - 1));
        words := words + [AsWord(w)];
      }
      assert words + [] == words;
      return Success(words);
    }

    /** The point loop of `processLineStrings`: `n` points, in file order. */
    method LoadPoints(n: nat) returns (r: Result<seq<Point>>)
      modifies this`pos
      ensures Agrees(r, Decoder.LoadPoints(bytes, old(pos), n), pos)
    {
      var points: seq<Point> := [];
      PrependNothing(Decoder.LoadPoints(bytes, pos, n));
      for i := 0 to n
        invariant Decoder.LoadPoints(bytes, old(pos), n) == Prepend(points, Decoder.LoadPoints(bytes, pos, n - i))
      {
        var p :- LoadPoint();
        PrependTwice(points, p, Decoder.LoadPoints(bytes, pos, n - i - 1));
        points := points + [p];
      }
      assert points + [] == points;
      return Success(points);
    }

    /** `processLineStrings`. */
    method ProcessLineStrings() returns (r: Result<LineStrings>)
      modifies this`pos
      ensures Agrees(r, Decoder.ProcessLineStrings(bytes, old(pos), fmt), pos)
    {
      var np :- LoadData('V');
      var nq :- LoadData('V');
      var numParts, numPoints := AsWord(np), AsWord(nq);
      var parts :- LoadWords(Bound(numParts));
      parts := parts + [numPoints];
      var points :- LoadPoints(Bound(numPoints));
      var geometries := AssembleGeometries(fmt, points, parts, numParts);
      return Success(LineStrings(numParts, geometries));
    }

    /** `loadPointRecord`. */
    method LoadPointRecord() returns (r: Result<Geometry>)
      modifies this`pos
      ensures Agrees(r, Decoder.LoadPointRecord(bytes, old(pos), fmt), pos)
    {
      var p :- LoadPoint();
      return Success(Shape(BoundingBox(p.x, p.y, p.x, p.y), IntCount(Some(1)), PointWkt(fmt, p)));
    }

    /** `loadPolyLineRecord`. */
    method LoadPolyLineRecord() returns (r: Result<Geometry>)
      modifies this`pos
      ensures Agrees(r, Decoder.LoadPolyLineRecord(bytes, old(pos), fmt), pos)
    {
      var box :- LoadBoundingBox();
      var ls :- ProcessLineStrings();
      return Success(Shape(box, IntCount(ls.numParts), PolyLineWkt(ls.numParts, ls.geometries)));
    }

    /** `loadPolygonRecord`. */
    method LoadPolygonRecord() returns (r: Result<Geometry>)
      modifies this`pos
      ensures Agrees(r, Decoder.LoadPolygonRecord(bytes, old(pos), fmt), pos)
    {
      var box :- LoadBoundingBox();
      var ls :- ProcessLineStrings();
      return Success(Shape(box, IntCount(ls.numParts), PolygonWkt(ls.numParts, ls.geometries)));
    }

    /**
     * `loadMultiPointRecord`. Its point loop is bounded by a key that
     * `shpData` never has, so it runs no turn and is not written out.
     */
    method LoadMultiPointRecord() returns (r: Result<Geometry>)
      modifies this`pos
      ensures Agrees(r, Decoder.LoadMultiPointRecord(bytes, old(pos), fmt), pos)
    {
      var box :- LoadBoundingBox();
      var count :- LoadData('d');
      return Success(Shape(box, RealCount(AsReal(count)), MultiPointWkt([])));
    }

    /** `loadRecord`: the record header, then the shape its type name selects. */
    method LoadRecord() returns (r: Result<Record>)
      modifies this`pos
      ensures Agrees(r, Decoder.LoadRecord(bytes, old(pos), fmt), pos)
    {
      var number :- LoadData('N');
      var length :- LoadData('N');
      var code :- LoadData('V');
      var id := AsWord(code);
      var name := GeoTypeFromID(KeyOfWord(id));
      var geom: Geometry;
      if name == Some("Null Shape") {
        geom := NullRecord();
      } else if name == Some("Point") {
        geom :- LoadPointRecord();
      } else if name == Some("PolyLine") {
        geom :- LoadPolyLineRecord();
      } else if name == Some("Polygon") {
        geom :- LoadPolygonRecord();
      } else if name == Some("MultiPoint") {
        geom :- LoadMultiPointRecord();
      } else {
        return Failure(UnsupportedType(name));
      }
      return Success(Record(RecordType(id, name), geom));
    }

    /**
     * `loadRecords`: from offset 100, decode records until the cursor is at
     * the end of the file, appending each non-empty one to `shpData`; the
     * fault that stops it, if any, is returned.
     */
    method LoadRecords() returns (fault: Option<Fault>)
      modifies this`pos, this`shpData
      ensures shpData == old(shpData) + Decoder.LoadRecords(bytes, RECORDS_OFFSET, fmt).kept
      ensures fault == Decoder.LoadRecords(bytes, RECORDS_OFFSET, fmt).fault
    {
      pos := RECORDS_OFFSET;
      ghost var starts: seq<nat>, recs: seq<Record> := [RECORDS_OFFSET], [];
      while pos != |bytes|
        invariant Decodes(bytes, fmt, starts, recs) && starts[0] == RECORDS_OFFSET && starts[|recs|] == pos
        invariant shpData == old(shpData) + KeepAll(recs)
        decreases |bytes| - pos
      {
        var record := LoadRecord();
        if record.Failure? {
          FaultKeepsDecodedPrefix(bytes, fmt, starts, recs);
          return Some(record.error);
        }
        DecodesExtend(bytes, fmt, starts, recs, record.value, pos);
        KeepAllSnoc(recs, record.value);
        if !record.value.geom.Empty? {
          shpData := shpData + [record.value];
        }
        starts, recs := starts + [pos], recs + [record.value];
      }
      CleanEndKeepsAll(bytes, fmt, starts, recs);
      return None;
    }

    /**
     * `loadHeaders`: the file length at offset 24, the type code at 32 and
     * the bounding box after it; `headerInfo` is set only once all of them
     * have been read.
     */
    method LoadHeaders() returns (r: Result<Header>)
      modifies this`pos, this`headerInfo
      ensures r == Decoder.LoadHeaders(bytes)
      ensures headerInfo == if r.Success? then Some(r.value) else old(headerInfo)
    {
      pos := LENGTH_OFFSET;
      var length :- LoadData('N');
      pos := TYPE_OFFSET;
      var code :- LoadData('V');
      var shapeType := GeoTypeFromID(KeyOfWord(AsWord(code)));
      var box :- LoadBoundingBox();
      var header := Header(AsWord(length), HeaderType(shapeType, GeoTypeFromID(KeyOfName(shapeType))), box);
      headerInfo := Some(header);
      return Success(header);
    }
  }
}

=== FILE: parts.dfy ===
/**
 * Part reassembly, the second half of `processLineStrings`: the flat point
 * array is cut at the part starts (with the point count appended as the last
 * boundary) and every part becomes one parenthesised coordinate list; a
 * record that declares exactly one part keeps all of its points in one flat list.
 *
 * Part starts and counts are `Option<nat>` because a read past the end of
 * the file gives null, and the loops compare and increment with PHP's
 * rules for null.
 */
module Parts {
  import opened Records
  import opened Wkt

  /**
   * PHP's `$j < $hi`; a comparison with null compares booleans, and
   * `false < true` only. So a null `$j` counts as 0, and a null bound is
   * never above anything.
   */
  function Less(j: Option<nat>, hi: Option<nat>): (b: bool)
    ensures b <==> hi.Some? && Bound(j) < hi.value
  {
    match hi
    case None => false
    case Some(b) => if j.None? then b != 0 else j.value < b
  }

  /** PHP's `$j++`; `null++` is 1, so null again counts as 0. */
  function Incr(j: Option<nat>): (r: Option<nat>)
    ensures r == Some(Bound(j) + 1)
  {
    if j.None? then Some(1) else Some(j.value + 1)
  }

  function Rank(j: Option<nat>): nat {
    if j.None? then 0 else j.value + 1
  }

  /**
   * The successive values of `$j` in `for ($j = $lo; $j < $hi; $j++)`: it
   * starts at `lo`, each value is the increment of the one before, the test
   * holds for each of them, and it fails for the value after the last.
   */
  function PartSlots(lo: Option<nat>, hi: Option<nat>): (r: seq<Option<nat>>)
    ensures |r| > 0 ==> r[0] == lo
    ensures forall k :: 0 <= k < |r| ==> Less(r[k], hi)
    ensures forall k :: 0 < k < |r| ==> r[k] == Incr(r[k - 1])
    ensures !Less(if |r| == 0 then lo else Incr(r[|r| - 1]), hi)
    decreases Bound(hi) + 1 - Rank(lo)
  {
    if Less(lo, hi) then [lo] + PartSlots(Incr(lo), hi) else []
  }

  /**
   * `$points[$j]`: the point read at `$j` when `$j` indexes the array; an
   * index outside it, or null, gives null coordinates.
   */
  function PointAt(points: seq<Point>, j: Option<nat>): (p: Point)
    ensures j.Some? && j.value < |points| ==> p == points[j.value]
    ensures !(j.Some? && j.value < |points|) ==> p.x.None? && p.y.None?
  {
    if j.Some? && j.value < |points| then points[j.value] else MissingPoint
  }

  /** The points the inner loop visits for the part from `lo` to `hi`. */
  function PartPoints(points: seq<Point>, lo: Option<nat>, hi: Option<nat>): (r: seq<Point>)
    ensures |r| == |PartSlots(lo, hi)|
  {
    var slots := PartSlots(lo, hi);
    seq(|slots|, k requires 0 <= k < |slots| => PointAt(points, slots[k]))
  }

  /** The part between each boundary and the next one. */
  function PartsOf(points: seq<Point>, bounds: seq<Option<nat>>): (r: seq<seq<Point>>)
    requires |bounds| > 0
    ensures |r| == |bounds| - 1
  {
    seq(|bounds| - 1, i requires 0 <= i < |bounds| - 1 => PartPoints(points, bounds[i], bounds[i + 1]))
  }

  /**
   * The `$geometries` list `processLineStrings` builds. `bounds` is `$parts`,
   * the part starts followed by the point count.
   */
  function Geometries(fmt: Formatter, points: seq<Point>, bounds: seq<Option<nat>>, numParts: Option<nat>): (r: seq<string>)
    requires |bounds| == Bound(numParts) + 1
    ensures numParts == Some(1) ==> |r| == |points|
    ensures numParts != Some(1) ==> |r| == Bound(numParts)
  {
    if numParts == Some(1) then Coords(fmt, points)
    else
      var parts := PartsOf(points, bounds);
      seq(|parts|, i requires 0 <= i < |parts| => Paren(Join(", ", Coords(fmt, parts[i]))))
  }

  /** The loops of `processLineStrings` from line 279 on, over the points and boundaries already read. */
  method AssembleGeometries(fmt: Formatter, points: seq<Point>, bounds: seq<Option<nat>>, numParts: Option<nat>)
    returns (geometries: seq<string>)
    requires |bounds| == Bound(numParts) + 1
    ensures geometries == Geometries(fmt, points, bounds, numParts)
  {
    geometries := [];
    if numParts == Some(1) {
      for i := 0 to |points|
        invariant geometries == Coords(fmt, points[..i])
      {
        geometries := geometries + [FormatPair(fmt, points[i])];
        assert points[..i + 1] == points[..i] + [points[i]];
      }
      assert points[..|points|] == points;
    } else {
      ghost var parts := PartsOf(points, bounds);
      for i := 0 to Bound(numParts)
        invariant |geometries| == i
        invariant forall k :: 0 <= k < i ==> geometries[k] == Paren(Join(", ", Coords(fmt, parts[k])))
      {
        var myPoints := FormatPart(fmt, points, bounds[i], bounds[i + 1]);
        geometries := geometries + [Paren(Join(", ", myPoints))];
      }
    }
  }

  /** The inner loop of `processLineStrings`: the formatted points of the part from `lo` to `hi`. */
  method FormatPart(fmt: Formatter, points: seq<Point>, lo: Option<nat>, hi: Option<nat>)
    returns (myPoints: seq<string>)
    ensures myPoints == Coords(fmt, PartPoints(points, lo, hi))
  {
    myPoints := [];
    var j := lo;
    while Less(j, hi)
      invariant myPoints + Coords(fmt, PartPoints(points, j, hi)) == Coords(fmt, PartPoints(points, lo, hi))
      decreases Bound(hi) + 1 - Rank(j)
    {
      FormatStep(fmt, points, j, hi);
      myPoints := myPoints + [FormatPair(fmt, PointAt(points, j))];
      j := Incr(j);
    }
    assert PartPoints(points, j, hi) == [];
  }

  /** One turn of the inner loop: the part from `j` is the point at `j` followed by the part from `j + 1`. */
  lemma SlotsStep(points: seq<Point>, j: Option<nat>, hi: Option<nat>)
    requires Less(j, hi)
    ensures PartPoints(points, j, hi) == [PointAt(points, j)] + PartPoints(points, Incr(j), hi)
  {
  }

  /** One turn of the inner loop, formatted. */
  lemma FormatStep(fmt: Formatter, points: seq<Point>, j: Option<nat>, hi: Option<nat>)
    requires Less(j, hi)
    ensures Coords(fmt, PartPoints(points, j, hi))
            == [FormatPair(fmt, PointAt(points, j))] + Coords(fmt, PartPoints(points, Incr(j), hi))
  {
    SlotsStep(points, j, hi);
    CoordsAppend(fmt, [PointAt(points, j)], PartPoints(points, Incr(j), hi));
  }

  /** Between two ordinary indices the loop visits each index from `a` up to `b`, once and in order. */
  lemma {:induction false} SlotsBetween(a: nat, b: nat)
    requires a <= b
    ensures PartSlots(Some(a), Some(b)) == seq(b - a, k requires 0 <= k < b - a => Some(a + k))
    decreases b - a
  {
    if a < b {
      SlotsBetween(a + 1, b);
    }
  }

  /** A part between two in-range indices is exactly that slice of the point array. */
  lemma {:induction false} PartIsSlice(points: seq<Point>, a: nat, b: nat)
    requires a <= b <= |points|
    ensures PartPoints(points, Some(a), Some(b)) == points[a..b]
  {
    SlotsBetween(a, b);
  }

  /** The boundaries a well-formed record carries: starts from 0, non-decreasing, ending at the point count. */
  ghost predicate WellFormedBounds(bounds: seq<Option<nat>>, numPoints: nat) {
    && |bounds| >= 2
    && (forall i :: 0 <= i < |bounds| ==> bounds[i].Some?)
    && bounds[0] == Some(0)
    && (forall i, j :: 0 <= i < j < |bounds| ==> bounds[i].value <= bounds[j].value)
    && bounds[|bounds| - 1] == Some(numPoints)
  }

  function Flatten(parts: seq<seq<Point>>): seq<Point> {
    if parts == [] then [] else Flatten(parts[..|parts| - 1]) + parts[|parts| - 1]
  }

  function TotalLength(parts: seq<seq<Point>>): nat {
    if parts == [] then 0 else TotalLength(parts[..|parts| - 1]) + |parts[|parts| - 1]|
  }

  lemma {:induction false} FlattenLength(parts: seq<seq<Point>>)
    ensures |Flatten(parts)| == TotalLength(parts)
  {
    if parts != [] {
      FlattenLength(parts[..|parts| - 1]);
    }
  }

  /** The first `n` parts together are the points up to the `n`-th boundary. */
  lemma {:induction false} PrefixOfParts(points: seq<Point>, bounds: seq<Option<nat>>, n: nat)
    requires WellFormedBounds(bounds, |points|)
    requires n < |bounds|
    ensures Flatten(PartsOf(points, bounds)[..n]) == points[..bounds[n].value]
  {
    var parts := PartsOf(points, bounds);
    if n > 0 {
      PrefixOfParts(points, bounds, n - 1);
      assert parts[..n][..n - 1] == parts[..n - 1];
      var a, b := bounds[n - 1].value, bounds[n].value;
      assert b <= |points| by {
        if n < |bounds| - 1 { assert bounds[n].value <= bounds[|bounds| - 1].value; }
      }
      PartIsSlice(points, a, b);
      assert points[..a] + points[a..b] == points[..b];
    }
  }

  /**
   * Part reassembly partitions the points: for well-formed boundaries the
   * parts are consecutive slices, laid end to end they give back the point
   * array, and their lengths add up to the point count.
   */
  lemma {:induction false} PartsPartitionPoints(points: seq<Point>, bounds: seq<Option<nat>>)
    requires WellFormedBounds(bounds, |points|)
    ensures var parts := PartsOf(points, bounds);
            && (forall i :: 0 <= i < |parts| ==> parts[i] == points[bounds[i].value..bounds[i + 1].value])
            && Flatten(parts) == points
            && TotalLength(parts) == |points|
  {
    var parts := PartsOf(points, bounds);
    forall i | 0 <= i < |parts|
      ensures parts[i] == points[bounds[i].value..bounds[i + 1].value]
    {
      assert bounds[i + 1].value <= bounds[|bounds| - 1].value || i + 1 == |bounds| - 1;
      PartIsSlice(points, bounds[i].value, bounds[i + 1].value);
    }
    PrefixOfParts(points, bounds, |bounds| - 1);
    assert parts[..|bounds| - 1] == parts;
    FlattenLength(parts);
  }

  /**
   * With several parts, each geometry string is the parenthesised list of
   * one slice of the points, in part order.
   */
  lemma {:induction false} MultiPartGeometries(fmt: Formatter, points: seq<Point>, bounds: seq<Option<nat>>, numParts: Option<nat>)
    requires numParts.Some? && numParts.value != 1 && |bounds| == numParts.value + 1
    requires WellFormedBounds(bounds, |points|)
    ensures var g := Geometries(fmt, points, bounds, numParts);
            && |g| == numParts.value
            && forall i :: 0 <= i < |g| ==>
                 g[i] == Paren(Join(", ", Coords(fmt, points[bounds[i].value..bounds[i + 1].value])))
  {
    PartsPartitionPoints(points, bounds);
    forall i | 0 <= i < numParts.value
      ensures Geometries(fmt, points, bounds, numParts)[i] == Paren(Join(", ", Coords(fmt, points[bounds[i].value..bounds[i + 1].value])))
    {
      assert PartsOf(points, bounds)[i] == points[bounds[i].value..bounds[i + 1].value];
    }
  }

  /**
   * A record with one part lists all of its points, in order, whatever start
   * index it stores; for the start 0 of a well-formed record that is the same
   * list the slicing rule would give for its one part.
   */
  lemma {:induction false} SinglePartIsWholeArray(fmt: Formatter, points: seq<Point>, bounds: seq<Option<nat>>)
    requires |bounds| == 2
    ensures Geometries(fmt, points, bounds, Some(1)) == Coords(fmt, points)
    ensures bounds == [Some(0), Some(|points|)] ==>
              Geometries(fmt, points, bounds, Some(1)) == Coords(fmt, PartsOf(points, bounds)[0])
  {
    if bounds == [Some(0), Some(|points|)] {
      PartIsSlice(points, 0, |points|);
      assert points[0..|points|] == points;
    }
  }
}

=== FILE: properties.dfy ===
/**
 * What the decoder promises about the bytes it reads: where the header
 * fields sit, which record types decode, what each shape decoder consumes
 * and produces, which records are kept, and what the constructor keeps
 * when a record fails.
 */
module Properties {
  import opened Bytes
  import opened Records
  import opened ShapeTypes
  import opened Reader
  import opened Wkt
  import opened Parts
  import opened Decoder

  /** The double stored at `p`. */
  function DoubleAt(bytes: seq<byte>, p: nat): Option<Double>
    requires p + 8 <= |bytes|
  {
    Some(Double(bytes[p..p + 8]))
  }

  /** The four doubles stored from `p` on, as xmin, ymin, xmax, ymax. */
  function BoxAt(bytes: seq<byte>, p: nat): BoundingBox
    requires p + 32 <= |bytes|
  {
    BoundingBox(DoubleAt(bytes, p), DoubleAt(bytes, p + 8), DoubleAt(bytes, p + 16), DoubleAt(bytes, p + 24))
  }

  /** The `n` little-endian words stored from `pos` on. */
  function WordsAt(bytes: seq<byte>, pos: nat, n: nat): (r: seq<Option<nat>>)
    requires pos + 4 * n <= |bytes|
    ensures |r| == n
    decreases n
  {
    if n == 0 then [] else [Some(LittleEndian32(bytes[pos..pos + 4]))] + WordsAt(bytes, pos + 4, n - 1)
  }

  /** The `n` points stored from `pos` on, sixteen bytes each: x, then y. */
  function PointsAt(bytes: seq<byte>, pos: nat, n: nat): (r: seq<Point>)
    requires pos + 16 * n <= |bytes|
    ensures |r| == n
    decreases n
  {
    if n == 0 then [] else [Point(DoubleAt(bytes, pos), DoubleAt(bytes, pos + 8))] + PointsAt(bytes, pos + 16, n - 1)
  }

  /** A full-width `V` read: the little-endian word at `pos`. */
  lemma WordRead(bytes: seq<byte>, pos: nat)
    requires pos + 4 <= |bytes|
    ensures LoadData(bytes, pos, 'V') == Success(Step(Some(Word(LittleEndian32(bytes[pos..pos + 4]))), pos + 4))
  {
  }

  /** A full-width `d` read: the double at `pos`. */
  lemma RealRead(bytes: seq<byte>, pos: nat)
    requires pos + 8 <= |bytes|
    ensures LoadData(bytes, pos, 'd') == Success(Step(Some(Real(Double(bytes[pos..pos + 8]))), pos + 8))
  {
  }

  lemma {:induction false} LoadWordsLayout(bytes: seq<byte>, pos: nat, n: nat)
    requires pos + 4 * n <= |bytes|
    ensures LoadWords(bytes, pos, n) == Success(Step(WordsAt(bytes, pos, n), pos + 4 * n))
    decreases n
  {
    if n > 0 {
      assert LoadData(bytes, pos, 'V') == Success(Step(Some(Word(LittleEndian32(bytes[pos..pos + 4]))), pos + 4));
      LoadWordsLayout(bytes, pos + 4, n - 1);
    }
  }

  lemma {:induction false} LoadPointsLayout(bytes: seq<byte>, pos: nat, n: nat)
    requires pos + 16 * n <= |bytes|
    ensures LoadPoints(bytes, pos, n) == Success(Step(PointsAt(bytes, pos, n), pos + 16 * n))
    decreases n
  {
    if n > 0 {
      assert LoadData(bytes, pos, 'd') == Success(Step(Some(Real(Double(bytes[pos..pos + 8]))), pos + 8));
      assert LoadData(bytes, pos + 8, 'd') == Success(Step(Some(Real(Double(bytes[pos + 8..pos + 16]))), pos + 16));
      LoadPointsLayout(bytes, pos + 16, n - 1);
    }
  }

  /** `LoadWordsLayout` with the end position named. */
  lemma WordsEndAt(bytes: seq<byte>, pos: nat, n: nat, end: nat)
    requires end == pos + 4 * n && end <= |bytes|
    ensures LoadWords(bytes, pos, n) == Success(Step(WordsAt(bytes, pos, n), end))
  {
    LoadWordsLayout(bytes, pos, n);
  }

  /** `LoadPointsLayout` with the end position named. */
  lemma PointsEndAt(bytes: seq<byte>, pos: nat, n: nat, end: nat)
    requires end == pos + 16 * n && end <= |bytes|
    ensures LoadPoints(bytes, pos, n) == Success(Step(PointsAt(bytes, pos, n), end))
  {
    LoadPointsLayout(bytes, pos, n);
  }

  /** Four doubles in a row, in the order xmin, ymin, xmax, ymax. */
  lemma {:induction false} BoundingBoxLayout(bytes: seq<byte>, pos: nat)
    requires pos + 32 <= |bytes|
    ensures LoadBoundingBox(bytes, pos)
            == Success(Step(BoxAt(bytes, pos), pos + 32))
  {
    assert LoadData(bytes, pos, 'd') == Success(Step(Some(Real(Double(bytes[pos..pos + 8]))), pos + 8));
    assert LoadData(bytes, pos + 8, 'd') == Success(Step(Some(Real(Double(bytes[pos + 8..pos + 16]))), pos + 16));
    assert LoadData(bytes, pos + 16, 'd') == Success(Step(Some(Real(Double(bytes[pos + 16..pos + 24]))), pos + 24));
    assert LoadData(bytes, pos + 24, 'd') == Success(Step(Some(Real(Double(bytes[pos + 24..pos + 32]))), pos + 32));
  }

  /**
   * The bounding box fails to decode exactly when the file ends inside one
   * of its four doubles; at or past the end of the file every coordinate is null.
   */
  lemma {:induction false} BoundingBoxDecodesUnlessCut(bytes: seq<byte>, pos: nat)
    ensures LoadBoundingBox(bytes, pos).Success? <==> !(pos < |bytes| < pos + 32 && (|bytes| - pos) % 8 != 0)
  {
    var n := |bytes|;
    if n <= pos {
      assert LoadData(bytes, pos, 'd') == Success(Step(None, pos));
    } else if n < pos + 8 {
      assert LoadData(bytes, pos, 'd').Failure?;
    } else if n < pos + 16 {
      assert LoadData(bytes, pos, 'd').Success?;
      assert n == pos + 8 ==> LoadData(bytes, pos + 8, 'd') == Success(Step(None, pos + 8));
    } else if n < pos + 24 {
      assert LoadData(bytes, pos, 'd').Success?;
      assert LoadData(bytes, pos + 8, 'd').Success?;
      assert n == pos + 16 ==> LoadData(bytes, pos + 16, 'd') == Success(Step(None, pos + 16));
    } else if n < pos + 32 {
      assert LoadData(bytes, pos, 'd').Success?;
      assert LoadData(bytes, pos + 8, 'd').Success?;
      assert LoadData(bytes, pos + 16, 'd').Success?;
      assert n == pos + 24 ==> LoadData(bytes, pos + 24, 'd') == Success(Step(None, pos + 24));
    } else {
      BoundingBoxLayout(bytes, pos);
    }
  }

  /**
   * The header of a file long enough to hold it: the file length is the
   * big-endian word at 24, the type is named from the little-endian word at
   * 32, and the four doubles after it are xmin, ymin, xmax, ymax, stored as
   * read, in that order, unchecked.
   */
  lemma {:induction false} HeaderLayout(bytes: seq<byte>)
    requires |bytes| >= 68
    ensures LoadHeaders(bytes) == Success(Header(
              Some(BigEndian32(bytes[24..28])),
              HeaderType(GeoTypeFromID(IntKey(LittleEndian32(bytes[32..36]))), None),
              BoxAt(bytes, 36)))
  {
    assert LoadData(bytes, LENGTH_OFFSET, 'N') == Success(Step(Some(Word(BigEndian32(bytes[24..28]))), 28));
    assert LoadData(bytes, TYPE_OFFSET, 'V') == Success(Step(Some(Word(LittleEndian32(bytes[32..36]))), 36));
    BoundingBoxLayout(bytes, 36);
    NameIsNeverACode(GeoTypeFromID(IntKey(LittleEndian32(bytes[32..36]))));
  }

  /** A header written with a file length and a type code reads back with that length and that code's name. */
  lemma {:induction false} HeaderRoundTrip(bytes: seq<byte>, length: nat, code: nat)
    requires |bytes| >= 68 && length < WORD_LIMIT && code < WORD_LIMIT
    requires bytes[24..28] == EncodeBigEndian32(length)
    requires bytes[32..36] == EncodeLittleEndian32(code)
    ensures LoadHeaders(bytes).Success?
    ensures LoadHeaders(bytes).value.length == Some(length)
    ensures LoadHeaders(bytes).value.shapeType == HeaderType(GeoTypeFromID(IntKey(code)), None)
  {
    HeaderLayout(bytes);
    BigEndian32RoundTrip(length);
    LittleEndian32RoundTrip(code);
  }

  /** Whatever the file, the header's `shapeType.name` is null: it looks a name up as if it were a code. */
  lemma {:induction false} HeaderTypeNameIsNull(bytes: seq<byte>)
    ensures LoadHeaders(bytes).Success? ==> LoadHeaders(bytes).value.shapeType.name == None
  {
    var code := LoadData(bytes, TYPE_OFFSET, 'V');
    if code.Success? {
      NameIsNeverACode(GeoTypeFromID(KeyOfWord(AsWord(code.value.value))));
    }
  }

  /**
   * The header decodes unless the file ends inside one of its fields:
   * inside the length, inside the type code, or inside one of the four doubles.
   */
  lemma {:induction false} HeaderDecodesUnlessCut(bytes: seq<byte>)
    ensures LoadHeaders(bytes).Success? <==>
              !(24 < |bytes| < 28) && !(32 < |bytes| < 36) && !(36 < |bytes| < 68 && (|bytes| - 36) % 8 != 0)
  {
    var n := |bytes|;
    if 24 < n < 28 {
      assert LoadData(bytes, LENGTH_OFFSET, 'N').Failure?;
    } else if 32 < n < 36 {
      assert LoadData(bytes, LENGTH_OFFSET, 'N').Success?;
      assert LoadData(bytes, TYPE_OFFSET, 'V').Failure?;
    } else if n <= 32 {
      assert LoadData(bytes, LENGTH_OFFSET, 'N').Success?;
      assert LoadData(bytes, TYPE_OFFSET, 'V') == Success(Step(None, 32));
      BoundingBoxDecodesUnlessCut(bytes, 32);
    } else {
      assert LoadData(bytes, LENGTH_OFFSET, 'N').Success?;
      assert LoadData(bytes, TYPE_OFFSET, 'V').Success? && LoadData(bytes, TYPE_OFFSET, 'V').value.next == 36;
      BoundingBoxDecodesUnlessCut(bytes, 36);
    }
  }

  /**
   * The twelve bytes that open a record: the record number and content
   * length (both read and dropped), then the type code, whose name picks
   * the shape decoder that reads on from the thirteenth byte.
   */
  lemma {:induction false} RecordHeaderLayout(bytes: seq<byte>, pos: nat, fmt: Formatter)
    requires pos + 12 <= |bytes|
    ensures var code := LittleEndian32(bytes[pos + 8..pos + 12]);
            var name := GeoTypeFromID(IntKey(code));
            var geom := LoadGeometry(bytes, pos + 12, name, fmt);
            LoadRecord(bytes, pos, fmt)
            == if geom.Success? then Success(Step(Record(RecordType(Some(code), name), geom.value.value), geom.value.next))
               else Failure(geom.error)
  {
    assert LoadData(bytes, pos, 'N').value.next == pos + 4;
    assert LoadData(bytes, pos + 4, 'N').value.next == pos + 8;
    assert LoadData(bytes, pos + 8, 'V') == Success(Step(Some(Word(LittleEndian32(bytes[pos + 8..pos + 12]))), pos + 12));
  }

  /** A record cut off by the end of the file before its type code is complete does not decode. */
  lemma {:induction false} RecordHeaderCut(bytes: seq<byte>, pos: nat, fmt: Formatter)
    requires pos + 12 > |bytes|
    ensures LoadRecord(bytes, pos, fmt).Failure?
  {
    var n := |bytes|;
    if n <= pos {
      assert LoadData(bytes, pos, 'N') == Success(Step(None, pos));
      assert LoadData(bytes, pos, 'V') == Success(Step(None, pos));
    } else if n < pos + 4 {
      assert LoadData(bytes, pos, 'N').Failure?;
    } else if n == pos + 4 {
      assert LoadData(bytes, pos + 4, 'N') == Success(Step(None, pos + 4));
      assert LoadData(bytes, pos + 4, 'V') == Success(Step(None, pos + 4));
    } else if n < pos + 8 {
      assert LoadData(bytes, pos + 4, 'N').Failure?;
    } else if n == pos + 8 {
      assert LoadData(bytes, pos + 8, 'V') == Success(Step(None, pos + 8));
    } else {
      assert LoadData(bytes, pos + 8, 'V').Failure?;
    }
  }

  /**
   * Dispatch: a record decodes only if its type code is one of Null Shape,
   * Point, PolyLine, Polygon and MultiPoint; every other code, named in the
   * table or not, and a type code cut off by the end of the file, ends the
   * run with the exception for that name.
   */
  lemma {:induction false} RecordDispatch(bytes: seq<byte>, pos: nat, fmt: Formatter)
    ensures var r := LoadRecord(bytes, pos, fmt);
            r.Success? ==>
              && pos + 12 <= |bytes|
              && var code := LittleEndian32(bytes[pos + 8..pos + 12]);
              && code in DecodedCodes
              && r.value.value.shapeType == RecordType(Some(code), GeoTypeFromID(IntKey(code)))
    ensures pos + 12 <= |bytes| ==>
              var code := LittleEndian32(bytes[pos + 8..pos + 12]);
              code !in DecodedCodes ==> LoadRecord(bytes, pos, fmt) == Failure(UnsupportedType(GeoTypeFromID(IntKey(code))))
    ensures pos + 12 > |bytes| ==> LoadRecord(bytes, pos, fmt).Failure?
  {
    if pos + 12 <= |bytes| {
      RecordHeaderLayout(bytes, pos, fmt);
      DecodedNameIffDecodedCode(Some(LittleEndian32(bytes[pos + 8..pos + 12])));
    } else {
      RecordHeaderCut(bytes, pos, fmt);
    }
  }

  /** The record a shape decoder's outcome becomes, under the type code read and its name. */
  function AsRecord(code: nat, geom: Result<Step<Geometry>>): Result<Step<Record>> {
    match geom
    case Success(g) => Success(Step(Record(RecordType(Some(code), GeoTypeFromID(IntKey(code))), g.value), g.next))
    case Failure(e) => Failure(e)
  }

  /**
   * Each decodable shape code runs its own decoder from the thirteenth byte
   * of the record, as the switch sends each name to its case; that
   * decoder's result becomes the record's geometry, and its failure the
   * record's failure.
   */
  lemma {:induction false} RecordDecodesByCode(bytes: seq<byte>, pos: nat, fmt: Formatter)
    requires pos + 12 <= |bytes|
    ensures var code := LittleEndian32(bytes[pos + 8..pos + 12]);
            && (code == POINT ==> LoadRecord(bytes, pos, fmt) == AsRecord(code, LoadPointRecord(bytes, pos + 12, fmt)))
            && (code == POLYLINE ==> LoadRecord(bytes, pos, fmt) == AsRecord(code, LoadPolyLineRecord(bytes, pos + 12, fmt)))
            && (code == POLYGON ==> LoadRecord(bytes, pos, fmt) == AsRecord(code, LoadPolygonRecord(bytes, pos + 12, fmt)))
            && (code == MULTIPOINT ==> LoadRecord(bytes, pos, fmt) == AsRecord(code, LoadMultiPointRecord(bytes, pos + 12, fmt)))
  {
    RecordHeaderLayout(bytes, pos, fmt);
    DecodedCodeNames();
  }

  /** A Null Shape record is its twelve header bytes: nothing more is read, and its geometry is empty. */
  lemma {:induction false} NullShapeReadsNothing(bytes: seq<byte>, pos: nat, fmt: Formatter)
    requires pos + 12 <= |bytes| && LittleEndian32(bytes[pos + 8..pos + 12]) == NULL_SHAPE
    ensures LoadRecord(bytes, pos, fmt) == Success(Step(Record(RecordType(Some(0), Some("Null Shape")), Empty), pos + 12))
  {
    RecordHeaderLayout(bytes, pos, fmt);
    DecodedCodeNames();
    assert LoadGeometry(bytes, pos + 12, Some("Null Shape"), fmt) == Success(Step(Empty, pos + 12));
  }

  /**
   * A Point record: both corners of the bounding box are the point,
   * one geometry, WKT `POINT(x y)`, sixteen bytes consumed.
   */
  lemma {:induction false} PointRecordLayout(bytes: seq<byte>, pos: nat, fmt: Formatter)
    requires pos + 16 <= |bytes|
    ensures var x, y := DoubleAt(bytes, pos), DoubleAt(bytes, pos + 8);
            LoadPointRecord(bytes, pos, fmt)
            == Success(Step(Shape(BoundingBox(x, y, x, y), IntCount(Some(1)), "POINT(" + fmt(x) + " " + fmt(y) + ")"), pos + 16))
  {
    var x, y := DoubleAt(bytes, pos), DoubleAt(bytes, pos + 8);
    assert LoadData(bytes, pos, 'd') == Success(Step(Some(Real(Double(bytes[pos..pos + 8]))), pos + 8));
    assert LoadData(bytes, pos + 8, 'd') == Success(Step(Some(Real(Double(bytes[pos + 8..pos + 16]))), pos + 16));
    assert LoadPoint(bytes, pos) == Success(Step(Point(x, y), pos + 16));
    assert PointWkt(fmt, Point(x, y)) == "POINT(" + fmt(x) + " " + fmt(y) + ")";
  }

  /**
   * The MultiPoint decoder as written: the bounding box, then the point
   * count read as an 8-byte double; no point is read, the WKT lists none,
   * and 40 bytes are consumed.
   */
  lemma {:induction false} MultiPointAsWritten(bytes: seq<byte>, pos: nat, fmt: Formatter)
    requires pos + 40 <= |bytes|
    ensures LoadMultiPointRecord(bytes, pos, fmt)
            == Success(Step(Shape(BoxAt(bytes, pos), RealCount(DoubleAt(bytes, pos + 32)), "MULTIPOINT()"), pos + 40))
  {
    BoundingBoxLayout(bytes, pos);
    RealRead(bytes, pos + 32);
  }

  /** The ESRI MultiPoint layout: bounding box, a 4-byte point count n, then n points, 36 + 16n bytes. */
  lemma {:induction false} EsriMultiPointLayout(bytes: seq<byte>, pos: nat, fmt: Formatter, n: nat, end: nat)
    requires pos + 36 <= |bytes| && LittleEndian32(bytes[pos + 32..pos + 36]) == n
    requires end == pos + 36 + 16 * n && end <= |bytes|
    ensures EsriMultiPointRecord(bytes, pos, fmt)
            == Success(Step(Shape(BoxAt(bytes, pos), IntCount(Some(n)), MultiPointWkt(Wrapped(Coords(fmt, PointsAt(bytes, pos + 36, n))))), end))
  {
    BoundingBoxLayout(bytes, pos);
    WordRead(bytes, pos + 32);
    PointsEndAt(bytes, pos + 36, n, end);
  }

  /**
   * The decoder as written and the ESRI layout never end a MultiPoint record
   * at the same place (40 bytes against 36 + 16n), so after a MultiPoint
   * record the next record is read from the wrong offset.
   */
  lemma {:induction false} MultiPointLayoutsDisagree(bytes: seq<byte>, pos: nat, fmt: Formatter, n: nat, end: nat)
    requires pos + 40 <= |bytes| && LittleEndian32(bytes[pos + 32..pos + 36]) == n
    requires end == pos + 36 + 16 * n && end <= |bytes|
    ensures LoadMultiPointRecord(bytes, pos, fmt).Success? && EsriMultiPointRecord(bytes, pos, fmt).Success?
    ensures LoadMultiPointRecord(bytes, pos, fmt).value.next != EsriMultiPointRecord(bytes, pos, fmt).value.next
  {
    MultiPointAsWritten(bytes, pos, fmt);
    EsriMultiPointLayout(bytes, pos, fmt, n, end);
  }

  /**
   * The part list of a record laid out as the format says: part count k and
   * point count n, k little-endian starts, n points; the point count closes
   * the boundary list.
   */
  lemma {:induction false} ProcessLineStringsLayout(bytes: seq<byte>, pos: nat, fmt: Formatter, k: nat, n: nat, mid: nat, end: nat)
    requires mid == pos + 8 + 4 * k && end == mid + 16 * n && end <= |bytes|
    requires LittleEndian32(bytes[pos..pos + 4]) == k && LittleEndian32(bytes[pos + 4..pos + 8]) == n
    ensures ProcessLineStrings(bytes, pos, fmt)
            == Success(Step(LineStrings(Some(k), Geometries(fmt, PointsAt(bytes, mid, n), WordsAt(bytes, pos + 8, k) + [Some(n)], Some(k))), end))
  {
    WordRead(bytes, pos);
    WordRead(bytes, pos + 4);
    ProcessLineStringsStarts(bytes, pos, fmt, k, n, mid, end);
  }

  /** The part list once both counts are read. */
  lemma ProcessLineStringsStarts(bytes: seq<byte>, pos: nat, fmt: Formatter, k: nat, n: nat, mid: nat, end: nat)
    requires LoadData(bytes, pos, 'V') == Success(Step(Some(Word(k)), pos + 4))
    requires LoadData(bytes, pos + 4, 'V') == Success(Step(Some(Word(n)), pos + 8))
    requires mid == pos + 8 + 4 * k && end == mid + 16 * n && end <= |bytes|
    ensures ProcessLineStrings(bytes, pos, fmt)
            == Success(Step(LineStrings(Some(k), Geometries(fmt, PointsAt(bytes, mid, n), WordsAt(bytes, pos + 8, k) + [Some(n)], Some(k))), end))
  {
    WordsEndAt(bytes, pos + 8, k, mid);
    ProcessLineStringsPoints(bytes, pos, fmt, k, n, WordsAt(bytes, pos + 8, k), mid, end);
  }

  /** The part list once the counts and the part starts are read. */
  lemma ProcessLineStringsPoints(bytes: seq<byte>, pos: nat, fmt: Formatter, k: nat, n: nat, starts: seq<Option<nat>>, mid: nat, end: nat)
    requires LoadData(bytes, pos, 'V') == Success(Step(Some(Word(k)), pos + 4))
    requires LoadData(bytes, pos + 4, 'V') == Success(Step(Some(Word(n)), pos + 8))
    requires LoadWords(bytes, pos + 8, k) == Success(Step(starts, mid))
    requires end == mid + 16 * n && end <= |bytes|
    ensures ProcessLineStrings(bytes, pos, fmt)
            == Success(Step(LineStrings(Some(k), Geometries(fmt, PointsAt(bytes, mid, n), starts + [Some(n)], Some(k))), end))
  {
    PointsEndAt(bytes, mid, n, end);
    ProcessLineStringsSteps(bytes, pos, fmt, k, n, starts, PointsAt(bytes, mid, n), mid, end);
  }

  /** `processLineStrings` put together from what each of its reads gives. */
  lemma ProcessLineStringsSteps(bytes: seq<byte>, pos: nat, fmt: Formatter, k: nat, n: nat,
                                starts: seq<Option<nat>>, points: seq<Point>, mid: nat, end: nat)
    requires LoadData(bytes, pos, 'V') == Success(Step(Some(Word(k)), pos + 4))
    requires LoadData(bytes, pos + 4, 'V') == Success(Step(Some(Word(n)), pos + 8))
    requires LoadWords(bytes, pos + 8, k) == Success(Step(starts, mid))
    requires LoadPoints(bytes, mid, n) == Success(Step(points, end))
    ensures |starts| == k
    ensures ProcessLineStrings(bytes, pos, fmt)
            == Success(Step(LineStrings(Some(k), Geometries(fmt, points, starts + [Some(n)], Some(k))), end))
  {
  }

  /**
   * A part list with k >= 2 well-formed parts: the part count is k, and the
   * i-th geometry string lists exactly the points from the i-th start up to
   * the next one, in order; the list ends after its last point.
   * (`LineRecordsShareParts` turns these strings into the PolyLine and
   * Polygon WKT.)
   */
  lemma {:induction false} MultiPartLineStrings(bytes: seq<byte>, pos: nat, fmt: Formatter, k: nat, n: nat, mid: nat, end: nat)
    requires mid == pos + 8 + 4 * k && end == mid + 16 * n && end <= |bytes|
    requires LittleEndian32(bytes[pos..pos + 4]) == k && LittleEndian32(bytes[pos + 4..pos + 8]) == n
    requires k >= 2 && WellFormedBounds(WordsAt(bytes, pos + 8, k) + [Some(n)], n)
    ensures var points := PointsAt(bytes, mid, n);
            var bounds := WordsAt(bytes, pos + 8, k) + [Some(n)];
            var r := ProcessLineStrings(bytes, pos, fmt);
            && r.Success?
            && r.value.next == end
            && r.value.value.numParts == Some(k)
            && |r.value.value.geometries| == k
            && forall i :: 0 <= i < k ==>
                 r.value.value.geometries[i] == Paren(Join(", ", Coords(fmt, points[bounds[i].value..bounds[i + 1].value])))
  {
    ProcessLineStringsLayout(bytes, pos, fmt, k, n, mid, end);
    MultiPartGeometries(fmt, PointsAt(bytes, mid, n), WordsAt(bytes, pos + 8, k) + [Some(n)], Some(k));
  }

  /**
   * PolyLine and Polygon records read the same bytes the same way: same
   * bounding box, same part count in `numGeometries`, same end; they differ
   * only in the WKT, where the polygon wraps every part in one more pair of
   * parentheses and picks the MULTI tag on the same condition.
   */
  lemma {:induction false} LineRecordsShareParts(bytes: seq<byte>, pos: nat, fmt: Formatter)
    ensures var line, poly := LoadPolyLineRecord(bytes, pos, fmt), LoadPolygonRecord(bytes, pos, fmt);
            && (line.Success? <==> poly.Success?)
            && (line.Success? ==>
                  var ls := ProcessLineStrings(bytes, LoadBoundingBox(bytes, pos).value.next, fmt).value.value;
                  var multi := IsMulti(ls.numParts);
                  && line.value.next == poly.value.next
                  && line.value.value.bbox == poly.value.value.bbox
                  && line.value.value.numGeometries == poly.value.value.numGeometries == IntCount(ls.numParts)
                  && line.value.value.wkt == Tagged(if multi then "MULTILINESTRING" else "LINESTRING", ls.geometries)
                  && poly.value.value.wkt == if multi then Tagged("MULTIPOLYGON", Wrapped(ls.geometries))
                                            else Tagged("POLYGON", [Paren(Join(", ", ls.geometries))]))
  {
    if LoadPolyLineRecord(bytes, pos, fmt).Success? {
      PolygonNestsOneLevelDeeper(ProcessLineStrings(bytes, LoadBoundingBox(bytes, pos).value.next, fmt).value.value.numParts,
                                 ProcessLineStrings(bytes, LoadBoundingBox(bytes, pos).value.next, fmt).value.value.geometries);
    }
  }

  /** Every record `loadRecords` keeps is a Point, PolyLine, Polygon or MultiPoint shape; Null Shapes are dropped. */
  lemma {:induction false} KeptRecordsAreShapes(bytes: seq<byte>, pos: nat, fmt: Formatter)
    ensures forall r :: r in LoadRecords(bytes, pos, fmt).kept ==>
              && r.geom.Shape?
              && r.shapeType.name.Some?
              && r.shapeType.name.value in DecodedNames - {"Null Shape"}
    decreases |bytes| - pos
  {
    if pos != |bytes| {
      var rec := LoadRecord(bytes, pos, fmt);
      if rec.Success? {
        KeptRecordsAreShapes(bytes, rec.value.next, fmt);
        var name := rec.value.value.shapeType.name;
        var number := LoadData(bytes, pos, 'N').value;
        var length := LoadData(bytes, number.next, 'N').value;
        var code := LoadData(bytes, length.next, 'V').value;
        assert LoadGeometry(bytes, code.next, name, fmt).Success?;
      }
    }
  }

  /**
   * The constructor: with a readable header, records are decoded from offset
   * 100; if a record then fails, `errorData` holds its fault and `shpData`
   * still holds the records decoded before it.
   */
  lemma {:induction false} ParseKeepsPrefixOnError(bytes: seq<byte>, fmt: Formatter, starts: seq<nat>, recs: seq<Record>)
    requires LoadHeaders(bytes).Success?
    requires Decodes(bytes, fmt, starts, recs) && starts[0] == RECORDS_OFFSET
    requires var p := starts[|recs|]; p != |bytes| && LoadRecord(bytes, p, fmt).Failure?
    ensures Parse(bytes, fmt)
            == ParseResult(Some(LoadHeaders(bytes).value), KeepAll(recs), Some(LoadRecord(bytes, starts[|recs|], fmt).error))
  {
    FaultKeepsDecodedPrefix(bytes, fmt, starts, recs);
  }
}

=== FILE: reader.dfy ===
/**
 * The low-level data pull (`loadData`, `loadDataLength`) as a function of
 * the file contents and the cursor position. The file is a byte sequence;
 * a read at or past its end gives nothing and leaves the cursor where it is.
 */
module Reader {
  import opened Bytes
  import opened Records

  /** `loadDataLength`: the width in bytes of each `unpack` format code the parser uses. */
  function LoadDataLength(code: char): (r: Option<nat>)
    ensures r.Some? <==> code in "dVN"
    ensures r.Some? ==> r.value in {4, 8}
    ensures r == Some(8) <==> code == 'd'
  {
    if code == 'd' then Some(8)
    else if code == 'V' || code == 'N' then Some(4)
    else None
  }

  /**
   * `unpack($code, $chunk)` for a chunk of exactly the width of `code`:
   * `N` and `V` give a 32-bit word, `d` a double, and in each case the chunk
   * can be recovered from the value, so nothing read is lost.
   */
  function Unpack(code: char, chunk: seq<byte>): (d: Datum)
    requires LoadDataLength(code) == Some(|chunk|)
    ensures d.Word? <==> code != 'd'
    ensures code == 'N' ==> d.n < WORD_LIMIT && EncodeBigEndian32(d.n) == chunk
    ensures code == 'V' ==> d.n < WORD_LIMIT && EncodeLittleEndian32(d.n) == chunk
    ensures code == 'd' ==> d.d.raw == chunk
  {
    if code == 'N' then BigEndian32Injective(chunk); Word(BigEndian32(chunk))
    else if code == 'V' then LittleEndian32Injective(chunk); Word(LittleEndian32(chunk))
    else Real(Double(chunk))
  }

  /** How many bytes `fread($file, width)` returns at `pos`. */
  function Available(bytes: seq<byte>, pos: nat, width: nat): (n: nat)
    ensures n <= width
    ensures n > 0 ==> pos + n <= |bytes|
  {
    if pos >= |bytes| then 0
    else if |bytes| - pos < width then |bytes| - pos
    else width
  }

  /**
   * `loadData($code)` at `pos`, in the three cases of `fread`: a full-width
   * read is unpacked and moves the cursor by the width; an empty read (end
   * of file, or a code without a width) is null and leaves the cursor; a
   * partial read cannot be unpacked.
   */
  function LoadData(bytes: seq<byte>, pos: nat, code: char): (r: Result<Step<Option<Datum>>>)
    ensures LoadDataLength(code).None? || pos >= |bytes| ==> r == Success(Step(None, pos))
    ensures LoadDataLength(code).Some? && pos < |bytes| < pos + LoadDataLength(code).value ==>
              r == Failure(ShortRead(pos))
    ensures LoadDataLength(code).Some? && pos + LoadDataLength(code).value <= |bytes| ==>
              var next := pos + LoadDataLength(code).value;
              r == Success(Step(Some(Unpack(code, bytes[pos..next])), next))
    ensures r.Failure? ==> r.error == ShortRead(pos)
  {
    var width := LoadDataLength(code);
    if width.None? then Success(Step(None, pos))
    else
      var got := Available(bytes, pos, width.value);
      if got == 0 then Success(Step(None, pos))
      else if got < width.value then Failure(ShortRead(pos))
      else Success(Step(Some(Unpack(code, bytes[pos..pos + got])), pos + got))
  }

  /** A big-endian word stored at `pos` is read back as the value written there. */
  lemma {:induction false} LoadBigEndianWord(bytes: seq<byte>, pos: nat, n: nat)
    requires n < WORD_LIMIT && pos + 4 <= |bytes|
    requires bytes[pos..pos + 4] == EncodeBigEndian32(n)
    ensures LoadData(bytes, pos, 'N') == Success(Step(Some(Word(n)), pos + 4))
  {
    BigEndian32RoundTrip(n);
  }

  /** A little-endian word stored at `pos` is read back as the value written there. */
  lemma {:induction false} LoadLittleEndianWord(bytes: seq<byte>, pos: nat, n: nat)
    requires n < WORD_LIMIT && pos + 4 <= |bytes|
    requires bytes[pos..pos + 4] == EncodeLittleEndian32(n)
    ensures LoadData(bytes, pos, 'V') == Success(Step(Some(Word(n)), pos + 4))
  {
    LittleEndian32RoundTrip(n);
  }
}

=== FILE: records.dfy ===
/**
 * The values the shapefile decoder reads and produces. PHP keeps them in
 * nested arrays; here each array shape is a datatype, and PHP's `null`
 * (what a read at end of file gives) is `None`.
 */
module Records {
  import opened Bytes

  datatype Option<+T> = None | Some(value: T)

  /**
   * An IEEE 754 double as `unpack('d', …)` would see it: the eight bytes
   * in the order the file stores them. The model never reads its numeric value.
   */
  datatype Double = Double(raw: seq<byte>)

  /** What `loadData` unpacks: an integer from `N` or `V`, a double from `d`. */
  datatype Datum = Word(n: nat) | Real(d: Double)

  /**
   * Why a decode stops. `UnsupportedType` is the exception `loadRecord`
   * throws for a type name outside its switch (the name may be null);
   * `ShortRead` is a field cut off by the end of the file after 1 to
   * width-1 bytes, which `unpack` cannot decode.
   */
  datatype Fault = ShortRead(offset: nat) | UnsupportedType(name: Option<string>)

  datatype Result<+T> = Success(value: T) | Failure(error: Fault) {
    predicate IsFailure() { Failure? }

    function PropagateFailure<U>(): Result<U>
      requires Failure?
    {
      Failure(error)
    }

    function Extract(): T
      requires Success?
    {
      value
    }
  }

  /** A decoded value and the file position just after it. */
  datatype Step<+T> = Step(value: T, next: nat)

  /**
   * What a method that moved the cursor from some position to `pos` and
   * returned `r` must agree with: the specification's outcome `spec` from
   * the starting position. On success the value and the new position agree;
   * on failure the fault does (the position no longer matters then).
   */
  predicate Agrees<T(==)>(r: Result<T>, spec: Result<Step<T>>, pos: nat) {
    match spec
    case Success(s) => r == Success(s.value) && pos == s.next
    case Failure(e) => r == Failure(e)
  }

  /** A reader never moves backwards, and never past the end of the file unless it started there. */
  predicate Advances(pos: nat, next: nat, size: nat) {
    pos <= next && (next == pos || next <= size)
  }

  datatype Point = Point(x: Option<Double>, y: Option<Double>)

  /** The point PHP produces for `$points[$j]` when `$j` is not an index: both coordinates null. */
  const MissingPoint := Point(None, None)

  datatype BoundingBox = BoundingBox(xmin: Option<Double>, ymin: Option<Double>,
                                     xmax: Option<Double>, ymax: Option<Double>)

  /**
   * `headerInfo['shapeType']`: `id` holds the type NAME looked up from the
   * code, and `name` holds that name looked up again as if it were a code.
   */
  datatype HeaderType = HeaderType(id: Option<string>, name: Option<string>)

  datatype Header = Header(length: Option<nat>, shapeType: HeaderType, boundingBox: BoundingBox)

  /** A record's `shapeType`: the code as read and its name. */
  datatype RecordType = RecordType(id: Option<nat>, name: Option<string>)

  /** `numGeometries`: an integer for lines, polygons and points, a double for MultiPoint. */
  datatype Count = IntCount(n: Option<nat>) | RealCount(d: Option<Double>)

  /** `geom`: `Empty` is the empty array of a Null Shape record. */
  datatype Geometry =
    | Empty
    | Shape(bbox: BoundingBox, numGeometries: Count, wkt: string)

  /** An element of `shpData`; the record number is read but not kept. */
  datatype Record = Record(shapeType: RecordType, geom: Geometry)

  /** `sprintf('%f', …)` on a coordinate that may be null; the model takes it as a parameter. */
  type Formatter = Option<Double> -> string

  /** The integer a `N`/`V` read gave, or null. */
  function AsWord(v: Option<Datum>): Option<nat> {
    if v.Some? && v.value.Word? then Some(v.value.n) else None
  }

  /** The double a `d` read gave, or null. */
  function AsReal(v: Option<Datum>): Option<Double> {
    if v.Some? && v.value.Real? then Some(v.value.d) else None
  }

  /** A PHP loop `for ($i = 0; $i < $n; $i++)` runs `Bound(n)` times: `0 < null` is false. */
  function Bound(n: Option<nat>): nat {
    if n.Some? then n.value else 0
  }
}

=== FILE: shape_types.dfy ===
/**
 * The shape-type table (`geomTypes`) and its lookup (`geoTypeFromID`).
 * Fourteen codes have a name; only five of them have a decoder.
 */
module ShapeTypes {
  import opened Records

  const NULL_SHAPE: nat := 0
  const POINT: nat := 1
  const POLYLINE: nat := 3
  const POLYGON: nat := 5
  const MULTIPOINT: nat := 8
  const POINT_Z: nat := 11
  const POLYLINE_Z: nat := 13
  const POLYGON_Z: nat := 15
  const MULTIPOINT_Z: nat := 18
  const POINT_M: nat := 21
  const POLYLINE_M: nat := 23
  const POLYGON_M: nat := 25
  const MULTIPOINT_M: nat := 28
  const MULTIPATCH: nat := 31

  /** The codes the table names. */
  const KnownCodes: set<int> := {0, 1, 3, 5, 8, 11, 13, 15, 18, 21, 23, 25, 28, 31}

  /** The codes `loadRecord` has a case for. */
  const DecodedCodes: set<int> := {0, 1, 3, 5, 8}

  function GeomTypes(): (m: map<int, string>)
    ensures m.Keys == KnownCodes
  {
    map[
      NULL_SHAPE := "Null Shape",
      POINT := "Point",
      POLYLINE := "PolyLine",
      POLYGON := "Polygon",
      MULTIPOINT := "MultiPoint",
      POINT_Z := "PointZ",
      POLYLINE_Z := "PolyLineZ",
      POLYGON_Z := "PolygonZ",
      MULTIPOINT_Z := "MultiPointZ",
      POINT_M := "PointM",
      POLYLINE_M := "PolyLineM",
      POLYGON_M := "PolygonM",
      MULTIPOINT_M := "MultiPointM",
      MULTIPATCH := "MultiPatch"
    ]
  }

  /** A value used as a PHP array key: an integer, a string, or null. */
  datatype Key = IntKey(i: int) | StrKey(s: string) | NullKey

  function KeyOfWord(w: Option<nat>): Key {
    if w.Some? then IntKey(w.value) else NullKey
  }

  function KeyOfName(n: Option<string>): Key {
    if n.Some? then StrKey(n.value) else NullKey
  }

  predicate IsDigit(c: char) { '0' <= c <= '9' }

  function DigitsValue(s: string): nat
    requires forall k :: 0 <= k < |s| ==> IsDigit(s[k])
  {
    if s == [] then 0 else DigitsValue(s[..|s| - 1]) * 10 + DigitValue(s[|s| - 1])
  }

  function DigitValue(c: char): nat
    requires IsDigit(c)
  {
    c as int - '0' as int
  }

  /**
   * The integer PHP turns a string key into: a string of decimal digits
   * without a leading zero (or "0" itself). A negative decimal string would
   * become a negative integer, which the table does not hold either, so it is
   * treated as a string key here.
   */
  function DecimalKey(s: string): (r: Option<nat>)
    ensures r.Some? ==> |s| > 0 && IsDigit(s[0])
  {
    if |s| > 0 && (forall k :: 0 <= k < |s| ==> IsDigit(s[k])) && (s[0] != '0' || |s| == 1)
    then Some(DigitsValue(s))
    else None
  }

  /** The integer index a key stands for in an integer-keyed array, if any; null becomes "". */
  function IndexOf(k: Key): Option<int> {
    match k
    case IntKey(i) => Some(i)
    case StrKey(s) => var d := DecimalKey(s); if d.Some? then Some(d.value as int) else None
    case NullKey => None
  }

  /** `geoTypeFromID($id)`: the name stored under `$id`, or null. */
  function GeoTypeFromID(id: Key): (r: Option<string>)
    ensures r.Some? <==> IndexOf(id).Some? && IndexOf(id).value in KnownCodes
    ensures id.IntKey? ==> (r.Some? <==> id.i in KnownCodes)
    ensures id.NullKey? ==> r.None?
    ensures r.Some? ==> r.value in GeomTypes().Values
    ensures r.Some? ==> IndexOf(id).value in GeomTypes() && r.value == GeomTypes()[IndexOf(id).value]
  {
    var index := IndexOf(id);
    if index.Some? && index.value in GeomTypes() then Some(GeomTypes()[index.value]) else None
  }

  /** The names the table gives the five codes the record decoder handles. */
  lemma DecodedCodeNames()
    ensures GeoTypeFromID(IntKey(NULL_SHAPE)) == Some("Null Shape")
    ensures GeoTypeFromID(IntKey(POINT)) == Some("Point")
    ensures GeoTypeFromID(IntKey(POLYLINE)) == Some("PolyLine")
    ensures GeoTypeFromID(IntKey(POLYGON)) == Some("Polygon")
    ensures GeoTypeFromID(IntKey(MULTIPOINT)) == Some("MultiPoint")
  {
    var m := GeomTypes();
    assert m[NULL_SHAPE] == "Null Shape" && m[POINT] == "Point" && m[POLYLINE] == "PolyLine";
    assert m[POLYGON] == "Polygon" && m[MULTIPOINT] == "MultiPoint";
  }

  /** The names the table gives the nine codes that have no decoder. */
  lemma OtherCodeNames()
    ensures GeoTypeFromID(IntKey(POINT_Z)) == Some("PointZ")
    ensures GeoTypeFromID(IntKey(POLYLINE_Z)) == Some("PolyLineZ")
    ensures GeoTypeFromID(IntKey(POLYGON_Z)) == Some("PolygonZ")
    ensures GeoTypeFromID(IntKey(MULTIPOINT_Z)) == Some("MultiPointZ")
    ensures GeoTypeFromID(IntKey(POINT_M)) == Some("PointM")
    ensures GeoTypeFromID(IntKey(POLYLINE_M)) == Some("PolyLineM")
    ensures GeoTypeFromID(IntKey(POLYGON_M)) == Some("PolygonM")
    ensures GeoTypeFromID(IntKey(MULTIPOINT_M)) == Some("MultiPointM")
    ensures GeoTypeFromID(IntKey(MULTIPATCH)) == Some("MultiPatch")
  {
    var m := GeomTypes();
    assert m[POINT_Z] == "PointZ" && m[POLYLINE_Z] == "PolyLineZ" && m[POLYGON_Z] == "PolygonZ";
    assert m[MULTIPOINT_Z] == "MultiPointZ" && m[POINT_M] == "PointM" && m[POLYLINE_M] == "PolyLineM";
    assert m[POLYGON_M] == "PolygonM" && m[MULTIPOINT_M] == "MultiPointM" && m[MULTIPATCH] == "MultiPatch";
  }

  /** The names that `loadRecord`'s switch has a case for. */
  const DecodedNames: set<string> := {"Null Shape", "Point", "PolyLine", "Polygon", "MultiPoint"}

  /** Looking a code up and testing the name against the switch is the same as testing the code. */
  lemma {:induction false} DecodedNameIffDecodedCode(w: Option<nat>)
    ensures var name := GeoTypeFromID(KeyOfWord(w));
            (name.Some? && name.value in DecodedNames) <==> (w.Some? && w.value in DecodedCodes)
  {
    var name := GeoTypeFromID(KeyOfWord(w));
    if name.Some? && name.value in DecodedNames {
      var m := GeomTypes();
      assert w.Some? && m[w.value] == name.value;
      assert forall c :: c in m && m[c] in DecodedNames ==> c in DecodedCodes;
    }
  }

  /**
   * No type name is itself a key of the table, so the header's second
   * lookup (`geoTypeFromID` applied to a name) is always null.
   */
  lemma {:induction false} NameIsNeverACode(n: Option<string>)
    requires n.Some? ==> n.value in GeomTypes().Values
    ensures GeoTypeFromID(KeyOfName(n)) == None
  {
    if n.Some? {
      var s := n.value;
      assert s[0] in "NPM";
      assert !IsDigit(s[0]);
      assert DecimalKey(s) == None;
    }
  }
}

=== FILE: wkt.dfy ===
/**
 * The Well-Known Text assembly of the shape decoders: coordinates are
 * formatted pairwise and glued with `implode`, then wrapped in the
 * geometry's tag. Coordinates themselves are formatted by a parameter
 * standing for `sprintf('%f', …)`.
 */
module Wkt {
  import opened Records

  /** The number of characters in a list of strings. */
  function CharCount(items: seq<string>): nat {
    if items == [] then 0 else |items[0]| + CharCount(items[1..])
  }

  /**
   * PHP's `implode($sep, $items)`: the items in order, with one separator
   * between each two of them and none around them.
   */
  function Join(sep: string, items: seq<string>): string {
    if |items| == 0 then ""
    else if |items| == 1 then items[0]
    else items[0] + sep + Join(sep, items[1..])
  }

  /** Joining two non-empty lists is joining each and putting one separator between them. */
  lemma {:induction false} JoinAppend(sep: string, a: seq<string>, b: seq<string>)
    requires |a| > 0 && |b| > 0
    ensures Join(sep, a + b) == Join(sep, a) + sep + Join(sep, b)
    decreases |a|
  {
    if |a| == 1 {
      assert (a + b)[1..] == b;
    } else {
      JoinAppend(sep, a[1..], b);
      assert (a + b)[1..] == a[1..] + b;
    }
  }

  /** `implode` adds exactly one separator between each two items and nothing else. */
  lemma {:induction false} JoinLength(sep: string, items: seq<string>)
    requires |items| > 0
    ensures |Join(sep, items)| == CharCount(items) + (|items| - 1) * |sep|
  {
    if |items| > 1 {
      JoinLength(sep, items[1..]);
    }
  }

  function Paren(s: string): string {
    "(" + s + ")"
  }

  /** Every item wrapped in its own pair of parentheses. */
  function Wrapped(items: seq<string>): (r: seq<string>)
    ensures |r| == |items|
    ensures forall i :: 0 <= i < |items| ==> r[i] == Paren(items[i])
  {
    seq(|items|, i requires 0 <= i < |items| => Paren(items[i]))
  }

  /** `TAG(item, item, …)`, the shape every WKT string of this decoder has. */
  function Tagged(tag: string, items: seq<string>): string {
    tag + Paren(Join(", ", items))
  }

  /** `sprintf('%f %f', $x, $y)`. */
  function FormatPair(fmt: Formatter, p: Point): string {
    fmt(p.x) + " " + fmt(p.y)
  }

  /** The formatted pairs of a run of points, in order. */
  function Coords(fmt: Formatter, points: seq<Point>): (r: seq<string>)
    ensures |r| == |points|
    ensures forall i :: 0 <= i < |points| ==> r[i] == FormatPair(fmt, points[i])
  {
    seq(|points|, i requires 0 <= i < |points| => FormatPair(fmt, points[i]))
  }

  /** Formatting distributes over concatenation: pairs are formatted one by one, in order. */
  lemma CoordsAppend(fmt: Formatter, a: seq<Point>, b: seq<Point>)
    ensures Coords(fmt, a + b) == Coords(fmt, a) + Coords(fmt, b)
  {
    assert forall i :: 0 <= i < |a + b| ==> Coords(fmt, a + b)[i] == (Coords(fmt, a) + Coords(fmt, b))[i];
  }

  /** `$numParts > 1`; PHP's `null > 1` is false. */
  predicate IsMulti(numParts: Option<nat>) {
    numParts.Some? && numParts.value > 1
  }

  /** `sprintf('POINT(%f %f)', $x, $y)`: the one coordinate pair, tagged. */
  function PointWkt(fmt: Formatter, p: Point): (r: string)
    ensures r == Tagged("POINT", [FormatPair(fmt, p)])
  {
    assert Join(", ", [FormatPair(fmt, p)]) == FormatPair(fmt, p);
    assert "POINT(" == "POINT" + "(";
    "POINT(" + FormatPair(fmt, p) + ")"
  }

  /**
   * `loadPolyLineRecord`'s WKT from `processLineStrings`' part count and
   * strings; the tag says MULTI exactly when more than one part was declared.
   */
  function PolyLineWkt(numParts: Option<nat>, geometries: seq<string>): (r: string)
    ensures "MULTI" <= r <==> IsMulti(numParts)
  {
    if IsMulti(numParts) then
      var r := "MULTILINESTRING(" + Join(", ", geometries) + ")";
      assert r[..5] == "MULTI";
      r
    else
      var r := "LINESTRING(" + Join(", ", geometries) + ")";
      assert r[0] == 'L';
      r
  }

  /**
   * `loadPolygonRecord`'s WKT from `processLineStrings`' part count and
   * strings; the tag says MULTI exactly when more than one part was declared.
   */
  function PolygonWkt(numParts: Option<nat>, geometries: seq<string>): (r: string)
    ensures "MULTI" <= r <==> IsMulti(numParts)
  {
    if IsMulti(numParts) then
      var r := "MULTIPOLYGON((" + Join("), (", geometries) + "))";
      assert r[..5] == "MULTI";
      r
    else
      var r := "POLYGON((" + Join(", ", geometries) + "))";
      assert r[0] == 'P';
      r
  }

  /** `loadMultiPointRecord`'s WKT from its list of `(x y)` strings: `MULTIPOINT()` when there are none. */
  function MultiPointWkt(items: seq<string>): (r: string)
    ensures r == Tagged("MULTIPOINT", items)
    ensures |items| == 0 ==> r == "MULTIPOINT()"
  {
    assert "MULTIPOINT(" == "MULTIPOINT" + "(";
    "MULTIPOINT(" + Join(", ", items) + ")"
  }

  /**
   * Joining with `"), ("` and adding one outer pair of parentheses is the
   * same as wrapping every item and joining with `", "`.
   */
  lemma {:induction false} JoinWithinParens(items: seq<string>)
    requires |items| > 0
    ensures Paren(Join("), (", items)) == Join(", ", Wrapped(items))
  {
    if |items| > 1 {
      var rest := items[1..];
      JoinWithinParens(rest);
      assert Wrapped(items)[1..] == Wrapped(rest);
      calc {
        Join(", ", Wrapped(items));
        Paren(items[0]) + ", " + Join(", ", Wrapped(rest));
        Paren(items[0]) + ", " + Paren(Join("), (", rest));
        "(" + (items[0] + "), (" + Join("), (", rest)) + ")";
      }
    }
  }

  /**
   * Both line decoders produce `TAG(…)` over the same strings, except that a
   * polygon puts every part inside one more pair of parentheses: each ring of
   * a MULTIPOLYGON is wrapped, and the one ring of a POLYGON is wrapped.
   */
  lemma {:induction false} PolygonNestsOneLevelDeeper(numParts: Option<nat>, geometries: seq<string>)
    requires IsMulti(numParts) ==> |geometries| > 0
    ensures PolyLineWkt(numParts, geometries)
            == Tagged(if IsMulti(numParts) then "MULTILINESTRING" else "LINESTRING", geometries)
    ensures PolygonWkt(numParts, geometries)
            == if IsMulti(numParts) then Tagged("MULTIPOLYGON", Wrapped(geometries))
               else Tagged("POLYGON", [Paren(Join(", ", geometries))])
  {
    PolyLineIsTagged(numParts, geometries);
    if IsMulti(numParts) {
      MultiPolygonWrapsParts(numParts, geometries);
    } else {
      PolygonWrapsItsRing(numParts, geometries);
    }
  }

  lemma PolyLineIsTagged(numParts: Option<nat>, geometries: seq<string>)
    ensures PolyLineWkt(numParts, geometries)
            == Tagged(if IsMulti(numParts) then "MULTILINESTRING" else "LINESTRING", geometries)
  {
  }

  lemma MultiPolygonWrapsParts(numParts: Option<nat>, geometries: seq<string>)
    requires IsMulti(numParts) && |geometries| > 0
    ensures PolygonWkt(numParts, geometries) == Tagged("MULTIPOLYGON", Wrapped(geometries))
  {
    JoinWithinParens(geometries);
    TwoParens("MULTIPOLYGON", Join("), (", geometries));
    assert "MULTIPOLYGON((" == "MULTIPOLYGON" + "((";
  }

  lemma PolygonWrapsItsRing(numParts: Option<nat>, geometries: seq<string>)
    requires !IsMulti(numParts)
    ensures PolygonWkt(numParts, geometries) == Tagged("POLYGON", [Paren(Join(", ", geometries))])
  {
    assert Join(", ", [Paren(Join(", ", geometries))]) == Paren(Join(", ", geometries));
    TwoParens("POLYGON", Join(", ", geometries));
    assert "POLYGON((" == "POLYGON" + "((";
  }

  /** `tag((s))` spelled with the two-character brackets is `tag` around two nested `Paren`s. */
  lemma TwoParens(tag: string, s: string)
    ensures tag + "((" + s + "))" == tag + Paren(Paren(s))
  {
    assert tag + "((" == tag + "(" + "(";
    assert "))" == ")" + ")";
  }
}
